=== FILE: README.md ===
# ChillIn core, modelled in Dafny

This project models three pieces of sequential logic of the ChillIn stress-monitoring app.

- **Location provider** (wearable). On each location fix it rounds the coordinates to three decimals, HALF_EVEN. It turns the wearer's speed into a target sampling period: `floor(100 / speed)` seconds, clamped to [5, 60]. It adopts the target only when it lies more than 5 seconds away from the current period (hysteresis). When it adopts one, it restarts location updates with it.
- **Stress-data DAO** (phone). It writes a batch of raw samples into two stores:
  - the durable document store: one upsert per sample, at `account/<email>/RawData/<timestamp>`;
  - the fast tree store: the partition `<local part of email>/RawData` is cleared, then every sample is written into it.

  It also reads samples back from either store, and reports one verdict per call: success, `NETWORK_ERROR`, `COMMUNICATION_PROBLEM` or `NOACCOUNT`.
- **Log-in view model** (phone). It validates the email and password fields, keeps the UI state (statuses, password visibility, log-in button, last authentication result), and runs the log-in attempts.

Files:

- `common.dfy`: `Option` (Kotlin's nullable values) and `ServiceResult`.
- `decimal.dfy`: `Long.toString()` and `String.toLongOrNull()`. Timestamps name documents through these two.
- `rounding.dfy`: `BigDecimal.setScale(3, HALF_EVEN)` over exact reals. Results are whole thousandths.
- `location_provider.dfy`: the provider singleton as an immutable `Provider` value with pure step functions. The fused location client is reduced to the requests registered on the provider's callback, plus a log of the calls made on it.
- `stress_data_dao.dfy`: the two stores as maps. A fault oracle says which remote calls throw: `fault(k)` holds when the k-th remote call of the operation throws.
- `log_in_view_model.dfy`: the UI state and its transitions. The email pattern, the password hash and the account repository are function parameters.

Where the model's conventions matter:

- An empty partition stands for a node or collection that does not exist.
- A remote call that throws is modelled as having had no effect.
- The document store keeps number types. The tree store does not: it hands back a whole-number `Double` as a `Long` (`StressDataDao.TreeNumber`).
- The order in which a store returns documents or children is the store's choice. The read methods model it as a nondeterministic pick.

In `insertRawData` a durable write that throws is caught by the `catch` at `FirebaseStressDataDao.kt:55`: `fastInsert` is never called, and the verdict is `NETWORK_ERROR` (`StressDataDao.DurableFailureIsTerminal`).

## Model

| member | source | states |
|---|---|---|
| LocationProvider.Initial | wearable/src/main/java/com/example/chillinapp/data/LocationProvider.kt:19-25 | the provider starts at the slow period of 60 s and satisfies the bounds-and-one-registration invariant |
| LocationProvider.TruncateToLong | wearable/src/main/java/com/example/chillinapp/data/LocationProvider.kt:38 | `toLong` truncates towards zero: the result is the integer part of the quotient, for either sign |
| LocationProvider.Clamp | wearable/src/main/java/com/example/chillinapp/data/LocationProvider.kt:39-43 | the clamped time lies in [5, 60], is the input when that is already in range, and is the point of [5, 60] nearest to the input |
| LocationProvider.TargetPeriod | wearable/src/main/java/com/example/chillinapp/data/LocationProvider.kt:33-43 | a speed of 0 yields no target; every other speed yields a target within [5, 60] |
| LocationProvider.TargetPeriodForPositiveSpeed | wearable/src/main/java/com/example/chillinapp/data/LocationProvider.kt:38-43 | for a positive speed the target is `floor(100 / speed)` bounded to [5, 60] |
| LocationProvider.TargetPeriodExamples | wearable/src/main/java/com/example/chillinapp/data/LocationProvider.kt:38-43 | speed 20 gives 5, speed 1 gives 60, speed 4 gives 25, speed 0 gives no target |
| LocationProvider.TargetPeriodMonotone | wearable/src/main/java/com/example/chillinapp/data/LocationProvider.kt:38-43 | for positive speeds, a higher speed never gives a longer target period |
| LocationProvider.RemoveUpdates | wearable/src/main/java/com/example/chillinapp/data/LocationProvider.kt:74-76 | removing the callback leaves no request registered and logs one removal |
| LocationProvider.RequestUpdates | wearable/src/main/java/com/example/chillinapp/data/LocationProvider.kt:67-70 | a deliberately pessimistic client: the new interval is added to the requests already registered, and the call is logged (the real client replaces the callback's request; the provider always removes first, so the two agree on every run of the provider) |
| LocationProvider.StartLocationUpdates | wearable/src/main/java/com/example/chillinapp/data/LocationProvider.kt:65-72 | afterwards exactly one request is registered, at the argument's period in milliseconds (60 s by default); it was preceded by a removal; period and coordinates are untouched |
| LocationProvider.StopLocationUpdates | wearable/src/main/java/com/example/chillinapp/data/LocationProvider.kt:74-76 | afterwards no request is registered; period and coordinates are untouched |
| LocationProvider.RecordPosition | wearable/src/main/java/com/example/chillinapp/data/LocationProvider.kt:30-31 | the stored coordinates are the HALF_EVEN three-decimal roundings of the fix; period and client are untouched |
| LocationProvider.OnLocationResult | wearable/src/main/java/com/example/chillinapp/data/LocationProvider.kt:28-49 | a result without a fix changes nothing; a fix stores the HALF_EVEN three-decimal roundings of its coordinates, within 0.0005 of them; a stationary fix leaves period and client alone; the invariant is preserved |
| LocationProvider.OnLocationResultHysteresis | wearable/src/main/java/com/example/chillinapp/data/LocationProvider.kt:45-48 | for a moving fix the period changes iff the target is outside [P-5, P+5]; then the new period is the target and updates restart with exactly that interval; otherwise the client sees no call |
| LocationProvider.HysteresisExamples | wearable/src/main/java/com/example/chillinapp/data/LocationProvider.kt:45-48 | from 60 s, a fix asking for 58 s is ignored and one asking for 50 s is adopted |
| LocationProvider.SetupLocationProvider | wearable/src/main/java/com/example/chillinapp/data/LocationProvider.kt:52-62 | a last known location, if there is one, sets both coordinates to their HALF_EVEN roundings; period and client are untouched |
| LocationProvider.RunPreservesValid | wearable/src/main/java/com/example/chillinapp/data/LocationProvider.kt:27-76 | over any sequence of setups, starts, stops and fixes, the period stays in [5, 60] and at most one request is registered |
| LocationProvider.ReachablePeriodBounded | wearable/src/main/java/com/example/chillinapp/data/LocationProvider.kt:19-21 | every period reachable from the initial state lies in [5, 60] |
| LocationProvider.OnLocationResultRoundsToNearest | wearable/src/main/java/com/example/chillinapp/data/LocationProvider.kt:30-31 | each stored coordinate is the only whole number of thousandths that HALF_EVEN rounding of the fix allows, and no multiple of 0.001 is closer to the fix |
| Rounding.RoundHalfEven | wearable/src/main/java/com/example/chillinapp/data/LocationProvider.kt:30-31 | the result is within 1/2 of the input, and on an exact tie it is even |
| Rounding.HalfEvenUnique | wearable/src/main/java/com/example/chillinapp/data/LocationProvider.kt:30-31 | at most one integer meets the HALF_EVEN condition for a value, so the rounding is fully determined by it |
| Rounding.SetScale | wearable/src/main/java/com/example/chillinapp/data/LocationProvider.kt:30-31 | the rounded coordinate is a multiple of 0.001 within 0.0005 of the input |
| Rounding.SetScaleIsNearest | wearable/src/main/java/com/example/chillinapp/data/LocationProvider.kt:30-31 | no multiple of 0.001 is closer to the input than the rounded value |
| Rounding.SetScaleIdempotent | wearable/src/main/java/com/example/chillinapp/data/LocationProvider.kt:58-59 | rounding an already rounded coordinate returns it unchanged |
| Rounding.SetScaleTies | wearable/src/main/java/com/example/chillinapp/data/LocationProvider.kt:30-31 | the exact ties 0.0625 and 0.1875 round to the even last digit, 0.062 and 0.188, -0.0625 rounds to -0.062, and 45.4996 rounds to 45.500 |
| Decimal.NatToString | app/src/main/java/com/example/chillinapp/data/stress/FirebaseStressDataDao.kt:37 | the decimal text of a natural number is a non-empty string of digits with no leading zero, except for 0 itself |
| Decimal.ToString | app/src/main/java/com/example/chillinapp/data/stress/FirebaseStressDataDao.kt:37 | the name of a timestamp is non-empty and starts with '-' exactly when the timestamp is negative; `Decimal.ToStringRoundTrip` shows it is the inverse of the parser |
| Decimal.ToLongOrNull | app/src/main/java/com/example/chillinapp/data/stress/FirebaseStressDataDao.kt:73 | a parse succeeds only on digits after an optional '+' or '-' sign, and without a '-' its value is non-negative; a digit string whose value fits in a Long parses to that value, leading zeros included |
| Decimal.ToStringRoundTrip | app/src/main/java/com/example/chillinapp/data/stress/FirebaseStressDataDao.kt:37-73 | parsing the name written for a timestamp gives back that timestamp, for every 64-bit value |
| Decimal.ToStringInjective | app/src/main/java/com/example/chillinapp/data/stress/FirebaseStressDataDao.kt:37 | distinct timestamps get distinct document names |
| Decimal.ParserIsLenient | app/src/main/java/com/example/chillinapp/data/stress/FirebaseStressDataDao.kt:73 | the reader accepts names the writer never produces ("+5", "007") and rejects "-" and "12a" |
| StressDataDao.LocalPart | app/src/main/java/com/example/chillinapp/data/stress/FirebaseStressDataDao.kt:94 | the fast-store key is the prefix of the email that holds no '@' and stops at the first '@' or at the end |
| StressDataDao.LocalPartBeforeFirstAt | app/src/main/java/com/example/chillinapp/data/stress/FirebaseStressDataDao.kt:94 | when the first '@' is at position i, the key is exactly the first i characters |
| StressDataDao.LocalPartCollision | app/src/main/java/com/example/chillinapp/data/stress/FirebaseStressDataDao.kt:94 | two different emails with the same local part share one fast-store partition |
| StressDataDao.RefusedEmails | app/src/main/java/com/example/chillinapp/data/stress/FirebaseStressDataDao.kt:94-95 | for every email, the tree store refuses the account's partition key exactly when one of '.', '#', '$', '[' and ']' comes before the email's first '@' |
| StressDataDao.Encode | app/src/main/java/com/example/chillinapp/data/stress/FirebaseStressDataDao.kt:38-42 | the record written for a sample holds its timestamp as a `Long`, and both readings as `Double`s where the readers cast them |
| StressDataDao.TreeNumber | app/src/main/java/com/example/chillinapp/data/stress/FirebaseStressDataDao.kt:100 | the tree store hands back every number with its value, but as a `Double` only when it has a fractional part: a whole-number `Double` comes back as a `Long`; text is kept |
| StressDataDao.ReadDocument | app/src/main/java/com/example/chillinapp/data/stress/FirebaseStressDataDao.kt:72-81 | a durable document is skipped iff its id is not an integer; with an integer id, a missing or non-Double sensor field makes the read throw; otherwise the sample carries the id as timestamp and the stored fields |
| StressDataDao.ReadChild | app/src/main/java/com/example/chillinapp/data/stress/FirebaseStressDataDao.kt:124-131 | a fast-store child throws iff a sensor field is missing or not a Double, whatever its key; otherwise it is skipped iff its key is not an integer |
| StressDataDao.ReadBackWritten | app/src/main/java/com/example/chillinapp/data/stress/FirebaseStressDataDao.kt:37-42 | a sample written under its timestamp's name reads back as itself from the document store; from the tree store it reads back exactly when both readings have a fractional part, and otherwise the cast throws |
| StressDataDao.ReadersDisagreeOnMalformedRecord | app/src/main/java/com/example/chillinapp/data/stress/FirebaseStressDataDao.kt:124-131 | an empty record named "summary" is skipped by the durable reader but fails the fast reader |
| StressDataDao.Upsert | app/src/main/java/com/example/chillinapp/data/stress/FirebaseStressDataDao.kt:36-48 | the per-sample writes remove no record; the four lemmas below give its full contents |
| StressDataDao.UpsertKeys | app/src/main/java/com/example/chillinapp/data/stress/FirebaseStressDataDao.kt:36-44 | the per-sample upserts add exactly one id per sample's timestamp and remove none |
| StressDataDao.UpsertKeepsOthers | app/src/main/java/com/example/chillinapp/data/stress/FirebaseStressDataDao.kt:36-44 | a record whose id no sample of the batch carries is left as it was |
| StressDataDao.UpsertLastWins | app/src/main/java/com/example/chillinapp/data/stress/FirebaseStressDataDao.kt:36-44 | when two samples share a timestamp, the record left under that id is the later sample's |
| StressDataDao.UpsertFromBatch | app/src/main/java/com/example/chillinapp/data/stress/FirebaseStressDataDao.kt:36-44 | every id the batch writes holds the encoding of one of the batch's samples with that timestamp |
| StressDataDao.UpsertContents | app/src/main/java/com/example/chillinapp/data/stress/FirebaseStressDataDao.kt:34-48 | after the per-sample upserts the ids are the old ones plus one per sample; records with other ids are untouched; each id holds the record of the last sample with that timestamp |
| StressDataDao.UpsertOverwrites | app/src/main/java/com/example/chillinapp/data/stress/FirebaseStressDataDao.kt:36-44 | the record a batch leaves under one of its ids does not depend on what the partition held before |
| StressDataDao.UpsertIdempotent | app/src/main/java/com/example/chillinapp/data/stress/FirebaseStressDataDao.kt:36-44 | writing the same batch twice to the durable store gives the same partition as writing it once |
| StressDataDao.WriteFrom | app/src/main/java/com/example/chillinapp/data/stress/FirebaseStressDataDao.kt:36-48 | writes run in batch order and stop at the first write that throws; the partition then holds exactly the samples before it; with no fault it holds the whole batch |
| StressDataDao.DurableWrites | app/src/main/java/com/example/chillinapp/data/stress/FirebaseStressDataDao.kt:33-48 | the durable phase succeeds iff none of its calls throws; it touches only this account's durable partition and never the fast store |
| StressDataDao.FastInsert | app/src/main/java/com/example/chillinapp/data/stress/FirebaseStressDataDao.kt:92-115 | no account gives NOACCOUNT and no store change; a refused key throws; success iff the clear and every write pass, and then the partition is exactly the batch keyed by timestamp, as the tree store holds it; every failure is COMMUNICATION_PROBLEM; other partitions and the durable store are untouched |
| StressDataDao.FastInsertIdempotent | app/src/main/java/com/example/chillinapp/data/stress/FirebaseStressDataDao.kt:98-101 | repeating a successful fast insert gives the same verdict and the same stores |
| StressDataDao.InsertRawData | app/src/main/java/com/example/chillinapp/data/stress/FirebaseStressDataDao.kt:27-59 | it never throws, for an email the document store accepts (see the '/' line under Left out); no account gives NOACCOUNT with no change; a durable fault gives NETWORK_ERROR with the fast store untouched; a fast-phase fault gives COMMUNICATION_PROBLEM; success iff the fast-store key is accepted and every remote call passes, and then both stores hold the batch; other accounts' durable partitions and other keys' fast partitions are unchanged |
| StressDataDao.DurableFailureIsTerminal | app/src/main/java/com/example/chillinapp/data/stress/FirebaseStressDataDao.kt:33-56 | when write k is the first to throw, the verdict is NETWORK_ERROR, the fast store is not contacted, and the durable store holds exactly the first k samples |
| StressDataDao.FastMirrorReadsBack | app/src/main/java/com/example/chillinapp/data/stress/FirebaseStressDataDao.kt:98-131 | when every reading of the batch has a fractional part, every child of the freshly written fast partition reads as a sample of the batch, and every sample that is last with its timestamp reads back |
| StressDataDao.WholeReadingBreaksFastRead | app/src/main/java/com/example/chillinapp/data/stress/FirebaseStressDataDao.kt:100-127 | a sample that is last with its timestamp and has a whole-number reading leaves a child whose cast throws, so the fast partition cannot be read |
| StressDataDao.DurableReadsBack | app/src/main/java/com/example/chillinapp/data/stress/FirebaseStressDataDao.kt:36-81 | after a successful insert, the durable partition is the batch upserted over the prior one, and each sample that is last with its timestamp reads back from its durable document |
| StressDataDao.GetRawData | app/src/main/java/com/example/chillinapp/data/stress/FirebaseStressDataDao.kt:60-91 | no account gives an empty success; a failing or non-positive query gives NETWORK_ERROR; a success has at most n samples, each read from some document; when n covers the partition, success iff no cast fails, and then every integer-named document's sample is returned |
| StressDataDao.FastGet | app/src/main/java/com/example/chillinapp/data/stress/FirebaseStressDataDao.kt:116-142 | no account gives an empty success; a refused key throws; a failing fetch gives COMMUNICATION_PROBLEM; otherwise success iff no child's cast fails, and then the list holds exactly the samples of the integer-keyed children |
| StressDataDao.DottedLocalPartEscapes | app/src/main/java/com/example/chillinapp/data/stress/FirebaseStressDataDao.kt:93-96 | for "first.last@example.com" the fast insert throws instead of returning a verdict, and `insertRawData` then reports NETWORK_ERROR although every durable write succeeded |
| StressDataDao.FastInsertGuarded | app/src/main/java/com/example/chillinapp/data/stress/FirebaseStressDataDao.kt:92-111 | with the partition resolved inside the `try`, the fast insert never throws: a refused key gives COMMUNICATION_PROBLEM, and everywhere else it agrees with the code as written |
| StressDataDao.WholeReadingFailsFastGet | app/src/main/java/com/example/chillinapp/data/stress/FirebaseStressDataDao.kt:100-127 | after a successful `insertRawData` of a batch whose last sample for some timestamp has a whole-number reading, the fast partition cannot be read, so `fastget` reports COMMUNICATION_PROBLEM |
| StressDataDao.ReadChildNumeric | app/src/main/java/com/example/chillinapp/data/stress/FirebaseStressDataDao.kt:124-131 | the child reader with the readings cast through `Number`: it fails iff a reading is missing or not a number, skips iff the key is not an integer, returns the stored numbers, and agrees with the reader as written wherever that one parses |
| StressDataDao.ReadBackWrittenNumeric | app/src/main/java/com/example/chillinapp/data/stress/FirebaseStressDataDao.kt:100-127 | with the corrected reader, a sample written to the tree store reads back as itself, whole-number readings included |
| StressDataDao.NumericMirrorReadsBack | app/src/main/java/com/example/chillinapp/data/stress/FirebaseStressDataDao.kt:98-131 | with the corrected reader, for every batch, every child of the freshly written fast partition reads as a sample of the batch, and every sample that is last with its timestamp reads back |
| LogInViewModel.EmailValidation | app/src/main/java/com/example/chillinapp/ui/access/login/LogInViewModel.kt:38-45 | EMPTY iff empty; TOO_LONG iff longer than 254, whatever the format; INVALID_FORMAT iff 1 to 254 characters and not an address; VALID iff 1 to 254 characters and an address |
| LogInViewModel.PasswordValidation | app/src/main/java/com/example/chillinapp/ui/access/login/LogInViewModel.kt:62-68 | EMPTY iff empty; TOO_LONG iff longer than 254; VALID iff 1 to 254 characters |
| LogInViewModel.IdleResult | app/src/main/java/com/example/chillinapp/ui/access/login/LogInViewModel.kt:136-142 | the authentication result is cleared and every other field is kept |
| LogInViewModel.AnyEmptyFieldIsEmptyStatus | app/src/main/java/com/example/chillinapp/ui/access/login/LogInViewModel.kt:76-88 | when the statuses match the texts, a field is empty exactly when its status is EMPTY, so two VALID statuses already imply the `!anyEmptyField()` test at line 79 |
| LogInViewModel.UpdateLogInButton | app/src/main/java/com/example/chillinapp/ui/access/login/LogInViewModel.kt:76-88 | only the button changes; it is never enabled with an empty field; with both fields non-empty it is enabled iff both statuses are VALID |
| LogInViewModel.UpdateEmail | app/src/main/java/com/example/chillinapp/ui/access/login/LogInViewModel.kt:23-36 | the email and its status are replaced, the result is cleared, the password fields and visibility are kept, and the button is enabled iff both statuses are VALID and the password is non-empty |
| LogInViewModel.UpdatePassword | app/src/main/java/com/example/chillinapp/ui/access/login/LogInViewModel.kt:47-60 | the password and its status are replaced, the result is cleared, the email fields and visibility are kept, and the button is enabled iff both statuses are VALID and the email is non-empty |
| LogInViewModel.UpdatesKeepButtonInvariant | app/src/main/java/com/example/chillinapp/ui/access/login/LogInViewModel.kt:23-88 | once the statuses match the texts, editing either field keeps them matching, and the button is enabled exactly when both fields are VALID |
| LogInViewModel.TogglePasswordVisibility | app/src/main/java/com/example/chillinapp/ui/access/login/LogInViewModel.kt:70-74 | only the visibility changes, and it is flipped |
| LogInViewModel.ToggleInvolution | app/src/main/java/com/example/chillinapp/ui/access/login/LogInViewModel.kt:70-74 | toggling twice restores the original state |
| LogInViewModel.LogIn | app/src/main/java/com/example/chillinapp/ui/access/login/LogInViewModel.kt:111-133 | the result shown is the repository's answer for the email and the hashed password; the button ends enabled; texts, statuses and visibility are kept |
| LogInViewModel.GoogleLogIn | app/src/main/java/com/example/chillinapp/ui/access/login/LogInViewModel.kt:90-109 | the result shown is the repository's Google sign-in answer; the button ends enabled; every other field is kept |
| LogInViewModel.LogInEnablesButtonRegardless | app/src/main/java/com/example/chillinapp/ui/access/login/LogInViewModel.kt:90-133 | example: a log-in attempt from a form with an empty email enables the button, so an attempt breaks the button invariant |
| LogInViewModel.AttemptsAndButtonInvariant | app/src/main/java/com/example/chillinapp/ui/access/login/LogInViewModel.kt:70-142 | from a form whose statuses match its texts, `idleResult` and `togglePasswordVisibility` keep the button invariant; `login` and `googleLogin` keep the statuses matching, and an attempt breaks the invariant exactly when a field is not VALID |

## Left out

- The Firebase SDKs, `await` and coroutines, `Log` calls, and the fused location client's internals, `Looper` and threading. Stores are maps, remote failures come from the fault oracle, and the client is its registered requests plus a call log.
- IEEE `Float`/`Double`: speeds and coordinates are exact reals. A coordinate stands for the exact binary value of the `Double`, which is what `BigDecimal(Double)` rounds, so a decimal such as 0.0125 that no `Double` holds is not a tie there. NaN, infinities, `Float.toLong` saturation and the final `toDouble` after rounding are not modelled.
- The `Context` setup and the `lateinit` client: a call made before `setupLocationProvider` would throw, and that case is not modelled.
- The location request's priority, and the client's checks on the interval it is given.
- The tree store's path rules are reduced to its refused characters `. # $ [ ]`. Its exemption for paths starting with `.info`, and the splitting of a key at '/', are not modelled.
- StressDataDao.InsertRawData and StressDataDao.GetRawData: the document store's path rules are not modelled. `accountCollection.document(email)` runs before the `try` (lines 30 and 63), so an email the document store refuses as a document id, such as one containing '/', would make both calls throw, as in the row under Findings. The model assumes the email is accepted.
- Number typing: the document store is taken to keep a `Double` as a `Double`. The tree store's untyped numbers are modelled by `StressDataDao.TreeNumber`; its handling of whole numbers outside the `Long` range is not.
- `String.toLongOrNull` also accepts non-ASCII Unicode decimal digits. Only '0'..'9' are modelled.
- The "30 samples per batch" rule appears only in a doc comment and is not enforced by the code. The model takes batches of any length.
- The batch accumulator and the simulation generators (`GenerateStressDataList.kt`, `GenerateDerivedDataList.kt`) are not part of this model. They are random demo fixtures.
- `SupportingText.kt` and `ChillInActivity.kt` are not part of this model. The first maps statuses to strings on screen; the second is the activity entry point.
- The `LogInUiState` class and `AccountRepository` are not part of this model. The initial UI state is therefore not fixed, and the log-in lemmas hold for every state.
- The email pattern `android.util.Patterns.EMAIL_ADDRESS`, `hashPassword` and the repository calls are uninterpreted function parameters.
- Lengths are counted in `char`s: one per element of the string, where Kotlin counts UTF-16 code units.
- LogInViewModel.LogIn and LogInViewModel.GoogleLogIn: only the final state is modelled. The intermediate state, where the button is disabled during the repository call, is not.
- StressDataDao.GetRawData: when the partition holds more than n documents, the contract does not say which ones the store picks, nor in what order.
- StressDataDao.FastGet: the contract states membership in both directions but not multiplicity. Two children can read as the same sample, for example "5" and "+5" holding equal fields.

## Findings

| source | as written | input that shows it | evidently intended | confidence | as-written member | corrected member |
|---|---|---|---|---|---|---|
| app/src/main/java/com/example/chillinapp/data/stress/FirebaseStressDataDao.kt:94-95 | `fastInsert` resolves `dbreference.child(key)` before its `try`, and the tree store throws on a key containing '.', '#', '$', '[' or ']'. So the exception escapes `fastInsert`, and `insertRawData` catches it as NETWORK_ERROR after the durable writes succeeded. `fastget` (line 120) has the same shape. | signed-in email `first.last@example.com`, any batch, no remote fault | a refused key is reported like every other fast-store failure, as COMMUNICATION_PROBLEM, and `fastInsert` never throws | medium; not executed; relies on the tree store's documented refusal of those characters in paths | StressDataDao.DottedLocalPartEscapes | StressDataDao.FastInsertGuarded |
| app/src/main/java/com/example/chillinapp/data/stress/FirebaseStressDataDao.kt:126-127 | `fastget` reads each sensor value with `getValue() as Double`. The tree store keeps numbers untyped and hands back a whole number as a `Long`. So a reading written as 70.0 at line 100 makes the cast throw, and the whole read reports COMMUNICATION_PROBLEM. | a successful `insertRawData` of one sample with heart rate 70.0 and skin temperature 33.5, then `fastget` with no remote fault | every sample `fastInsert` wrote reads back from the tree store, whatever the value of its readings | medium; not executed; relies on the tree store's documented return of whole numbers as `Long` | StressDataDao.WholeReadingFailsFastGet | StressDataDao.ReadChildNumeric |

=== FILE: common.dfy ===
/**
 * Small datatypes shared by the rest of the model: an optional value (Kotlin's
 * nullable types) and the success/failure verdict the data layer returns.
 */
module Common {

  /** A Kotlin nullable value: `None` stands for `null`. */
  datatype Option<+T> = None | Some(value: T)

  /**
   * The data layer's verdict. The repository's `ServiceResult(success, data, error)`
   * always carries exactly one of a payload (when `success` holds) or an error kind;
   * the two constructors make that invariant structural.
   */
  datatype ServiceResult<+T, +E> = Success(data: T) | Failure(error: E)
}

=== FILE: decimal.dfy ===
/**
 * Decimal text of 64-bit integers: Kotlin's `Long.toString()` (used to name a
 * sample's document and child node after its timestamp) and `String.toLongOrNull()`
 * (used to read the timestamp back from that name).
 */
module Decimal {
  import opened Common

  const LONG_MIN: int := -0x8000_0000_0000_0000
  const LONG_MAX: int := 0x7fff_ffff_ffff_ffff

  /** Kotlin's `Long`. */
  type Long = x: int | LONG_MIN <= x <= LONG_MAX

  predicate IsDigit(c: char) {
    '0' <= c <= '9'
  }

  predicate AllDigits(s: string) {
    forall i :: 0 <= i < |s| ==> IsDigit(s[i])
  }

  function DigitChar(d: nat): (c: char)
    requires d < 10
    ensures IsDigit(c) && (c as int) - ('0' as int) == d
  {
    (('0' as int) + d) as char
  }

  function DigitValue(c: char): nat
    requires IsDigit(c)
  {
    (c as int) - ('0' as int)
  }

  /** Canonical decimal digits of a natural number: no leading zero except for 0 itself. */
  function NatToString(n: nat): (s: string)
    ensures |s| > 0 && AllDigits(s)
    ensures s[0] == '0' ==> n == 0
  {
    (if n < 10 then "" else NatToString(n / 10)) + [DigitChar(n % 10)]
  }

  /** `Long.toString()`: a leading '-' for negative values, then the canonical digits. */
  function ToString(x: int): (s: string)
    ensures |s| > 0 && (s[0] == '-' <==> x < 0)
  {
    if x < 0 then "-" + NatToString(-x) else NatToString(x)
  }

  /** The value of a string of decimal digits, most significant first. */
  function DigitsValue(s: string): nat
    requires AllDigits(s)
  {
    if |s| == 0 then 0 else DigitsValue(s[..|s| - 1]) * 10 + DigitValue(s[|s| - 1])
  }

  /**
   * `String.toLongOrNull()` in radix 10: an optional '+' or '-' sign, then at least
   * one digit and nothing else; null when the value does not fit in a `Long`.
   */
  function ToLongOrNull(s: string): (r: Option<Long>)
    ensures r.Some? ==> |s| > 0
    ensures r.Some? && s[0] != '-' ==> r.value >= 0
    ensures r.Some? ==>
      || (|s| > 0 && AllDigits(s))
      || (|s| >= 2 && (s[0] == '-' || s[0] == '+') && AllDigits(s[1..]))
    ensures |s| > 0 && AllDigits(s) && DigitsValue(s) <= LONG_MAX ==> r == Some(DigitsValue(s))
  {
    if |s| == 0 then None
    else
      var negative := s[0] == '-';
      var body := if s[0] == '-' || s[0] == '+' then s[1..] else s;
      if |body| == 0 || !AllDigits(body) then None
      else
        var v: int := if negative then 0 - DigitsValue(body) as int else DigitsValue(body);
        if LONG_MIN <= v <= LONG_MAX then Some(v) else None
  }

  lemma {:induction false} NatToStringValue(n: nat)
    ensures DigitsValue(NatToString(n)) == n
    decreases n
  {
    var s := NatToString(n);
    var prefix := if n < 10 then "" else NatToString(n / 10);
    assert s == prefix + [DigitChar(n % 10)];
    assert s[..|s| - 1] == prefix;
    assert DigitValue(s[|s| - 1]) == n % 10;
    assert DigitsValue(s) == DigitsValue(prefix) * 10 + n % 10;
    if n >= 10 {
      NatToStringValue(n / 10);
    }
  }

  /** Reading back the name written for a timestamp gives that timestamp. */
  lemma ToStringRoundTrip(x: Long)
    ensures ToLongOrNull(ToString(x)) == Some(x)
  {
    var s := ToString(x);
    if x < 0 {
      var m: nat := -(x as int);
      var digits := NatToString(m);
      NatToStringValue(m);
      assert s == "-" + digits;
      assert s[1..] == digits;
    } else {
      NatToStringValue(x);
      assert s == NatToString(x);
      assert IsDigit(s[0]);
    }
  }

  /** Distinct timestamps name distinct documents. */
  lemma ToStringInjective(x: Long, y: Long)
    ensures ToString(x) == ToString(y) ==> x == y
  {
    ToStringRoundTrip(x);
    ToStringRoundTrip(y);
  }

  /** The parser accepts names the writer never produces, such as "+5" and "007". */
  lemma ParserIsLenient()
    ensures ToLongOrNull("+5") == Some(5)
    ensures ToLongOrNull("007") == Some(7)
    ensures ToLongOrNull("-") == None
    ensures ToLongOrNull("12a") == None
  {
    assert "+5"[1..] == "5";
    assert "5"[..0] == "";
    assert DigitsValue("5") == 5;
    assert "007"[..2] == "00";
    assert "00"[..1] == "0";
    assert "0"[..0] == "";
    assert DigitsValue("007") == 7;
    assert !IsDigit("12a"[2]);
  }
}

=== FILE: location_provider.dfy ===
/**
 * The wearable's location provider: it keeps the last known coordinates, rounded
 * to three decimals, and adapts the period at which it asks the fused location
 * client for fixes to the speed of the wearer, with a 5-second hysteresis band.
 *
 * The Android singleton becomes an immutable `Provider` value and each callback
 * a pure step function. The fused location client is reduced to the requests
 * registered on the provider's one callback and the log of calls made on it.
 */
module LocationProvider {
  import opened Common
  import Rounding

  const SLOW_SAMPLING_PERIOD: int := 60
  const FAST_SAMPLING_PERIOD: int := 5
  /** Side of the "square" the wearer is expected to cross, in meters. */
  const LENGTH_SQUARE: int := 100
  /** A new target period is adopted only when it is more than this many seconds away. */
  const HYSTERESIS: int := 5
  const MILLIS_PER_SECOND: int := 1000

  /** A fix from the positioning service: degrees, and meters per second. */
  datatype Location = Location(latitude: real, longitude: real, speed: real)

  /** A call made on the fused location client. */
  datatype ClientCall = RemoveLocationUpdates | RequestLocationUpdates(intervalMillis: int)

  /**
   * The fused location client as seen from the provider: the update intervals
   * currently registered for the provider's callback, and every call made so far.
   */
  datatype Client = Client(requests: seq<int>, calls: seq<ClientCall>)

  /** The provider's state. Coordinates are whole thousandths of a degree. */
  datatype Provider = Provider(
    samplingPeriod: int,
    latitudeMillis: int,
    longitudeMillis: int,
    client: Client)

  function Latitude(p: Provider): real {
    Rounding.Thousandths(p.latitudeMillis)
  }

  function Longitude(p: Provider): real {
    Rounding.Thousandths(p.longitudeMillis)
  }

  /** The singleton as loaded: slow period, coordinates 0.0, nothing registered. */
  function Initial(): (p: Provider)
    ensures Valid(p)
    ensures p.samplingPeriod == SLOW_SAMPLING_PERIOD
  {
    Provider(SLOW_SAMPLING_PERIOD, 0, 0, Client([], []))
  }

  /** The period stays within its bounds and at most one request is registered. */
  predicate Valid(p: Provider) {
    && FAST_SAMPLING_PERIOD <= p.samplingPeriod <= SLOW_SAMPLING_PERIOD
    && |p.client.requests| <= 1
  }

  // ---------------------------------------------------------------------------
  // Period estimation
  // ---------------------------------------------------------------------------

  /** `Float.toLong()`: drop the fraction, rounding towards zero. */
  function TruncateToLong(x: real): (t: int)
    ensures 0.0 <= x ==> t as real <= x < t as real + 1.0
    ensures x < 0.0 ==> t as real - 1.0 < x <= t as real
  {
    if x >= 0.0 then x.Floor else -((-x).Floor)
  }

  function Distance(a: int, b: int): nat {
    if a <= b then b - a else a - b
  }

  /** The two `if`s that bound the time to cross to the sampling limits. */
  function Clamp(t: int): (r: int)
    ensures FAST_SAMPLING_PERIOD <= r <= SLOW_SAMPLING_PERIOD
    ensures FAST_SAMPLING_PERIOD <= t <= SLOW_SAMPLING_PERIOD ==> r == t
    ensures forall q :: FAST_SAMPLING_PERIOD <= q <= SLOW_SAMPLING_PERIOD ==> Distance(r, t) <= Distance(q, t)
  {
    if t > SLOW_SAMPLING_PERIOD then SLOW_SAMPLING_PERIOD
    else if t < FAST_SAMPLING_PERIOD then FAST_SAMPLING_PERIOD
    else t
  }

  /**
   * The period a fix asks for: the seconds needed to cross `LENGTH_SQUARE`
   * meters at the fix's speed, clamped; `None` for a stationary fix, which the
   * callback ignores.
   */
  function TargetPeriod(speed: real): (r: Option<int>)
    ensures r.None? <==> speed == 0.0
    ensures r.Some? ==> FAST_SAMPLING_PERIOD <= r.value <= SLOW_SAMPLING_PERIOD
  {
    if speed == 0.0 then None
    else Some(Clamp(TruncateToLong(LENGTH_SQUARE as real / speed)))
  }

  /** For a moving wearer the target is `floor(100 / speed)` bounded to [5, 60]. */
  lemma TargetPeriodForPositiveSpeed(speed: real)
    requires speed > 0.0
    ensures TargetPeriod(speed).Some?
    ensures var t := (100.0 / speed).Floor;
      TargetPeriod(speed).value == if t > 60 then 60 else if t < 5 then 5 else t
  {
  }

  lemma TargetPeriodExamples()
    ensures TargetPeriod(20.0) == Some(FAST_SAMPLING_PERIOD)
    ensures TargetPeriod(1.0) == Some(SLOW_SAMPLING_PERIOD)
    ensures TargetPeriod(4.0) == Some(25)
    ensures TargetPeriod(0.0) == None
  {
    assert 100.0 / 20.0 == 5.0;
    assert 100.0 / 1.0 == 100.0;
    assert 100.0 / 4.0 == 25.0;
    assert TruncateToLong(5.0) == 5;
    assert TruncateToLong(100.0) == 100;
    assert TruncateToLong(25.0) == 25;
  }

  lemma DivideMonotone(a: real, s1: real, s2: real)
    requires a >= 0.0 && 0.0 < s1 <= s2
    ensures a / s2 <= a / s1
  {
    assert a / s1 - a / s2 == a * (s2 - s1) / (s1 * s2);
    assert a * (s2 - s1) >= 0.0;
    assert s1 * s2 > 0.0;
  }

  /** Faster motion never asks for a longer period. */
  lemma TargetPeriodMonotone(s1: real, s2: real)
    requires 0.0 < s1 <= s2
    ensures TargetPeriod(s2).value <= TargetPeriod(s1).value
  {
    var q1 := LENGTH_SQUARE as real / s1;
    var q2 := LENGTH_SQUARE as real / s2;
    DivideMonotone(LENGTH_SQUARE as real, s1, s2);
    assert TruncateToLong(q2) == q2.Floor && TruncateToLong(q1) == q1.Floor;
    assert q2.Floor <= q1.Floor;
  }

  // ---------------------------------------------------------------------------
  // The fused location client
  // ---------------------------------------------------------------------------

  /** `removeLocationUpdates(locationCallback)`: unregister every request of the callback. */
  function RemoveUpdates(c: Client): (r: Client)
    ensures r.requests == []
    ensures r.calls == c.calls + [RemoveLocationUpdates]
  {
    Client([], c.calls + [RemoveLocationUpdates])
  }

  /**
   * `requestLocationUpdates(request, locationCallback, looper)`, for a pessimistic
   * client that keeps every earlier request: the real client replaces the
   * callback's request instead. The provider always removes first, so its one
   * request is never the product of that replacement.
   */
  function RequestUpdates(c: Client, intervalMillis: int): (r: Client)
    ensures r.requests == c.requests + [intervalMillis]
    ensures r.calls == c.calls + [RequestLocationUpdates(intervalMillis)]
  {
    Client(c.requests + [intervalMillis], c.calls + [RequestLocationUpdates(intervalMillis)])
  }

  /** `startLocationUpdates(period)`: remove the callback, then request updates every `period` seconds. */
  function StartLocationUpdates(p: Provider, period: int := SLOW_SAMPLING_PERIOD): (r: Provider)
    ensures r.client.requests == [period * MILLIS_PER_SECOND]
    ensures r.client.calls == p.client.calls
      + [RemoveLocationUpdates, RequestLocationUpdates(period * MILLIS_PER_SECOND)]
    ensures r.samplingPeriod == p.samplingPeriod
    ensures r.latitudeMillis == p.latitudeMillis && r.longitudeMillis == p.longitudeMillis
  {
    p.(client := RequestUpdates(RemoveUpdates(p.client), period * MILLIS_PER_SECOND))
  }

  /** `stopLocationUpdates()`: no request is left registered. */
  function StopLocationUpdates(p: Provider): (r: Provider)
    ensures r.client.requests == []
    ensures r.client.calls == p.client.calls + [RemoveLocationUpdates]
    ensures r.samplingPeriod == p.samplingPeriod
    ensures r.latitudeMillis == p.latitudeMillis && r.longitudeMillis == p.longitudeMillis
  {
    p.(client := RemoveUpdates(p.client))
  }

  // ---------------------------------------------------------------------------
  // The callbacks
  // ---------------------------------------------------------------------------

  /** The hysteresis rule: is `target` outside the band of width 5 around `period`? */
  predicate OutsideBand(target: int, period: int) {
    target < period - HYSTERESIS || target > period + HYSTERESIS
  }

  /** Store the fix's coordinates, rounded to three decimals. */
  function RecordPosition(p: Provider, loc: Location): (r: Provider)
    ensures r.latitudeMillis == Rounding.SetScale(loc.latitude)
    ensures r.longitudeMillis == Rounding.SetScale(loc.longitude)
    ensures r.samplingPeriod == p.samplingPeriod && r.client == p.client
  {
    p.(latitudeMillis := Rounding.SetScale(loc.latitude),
       longitudeMillis := Rounding.SetScale(loc.longitude))
  }

  /**
   * `locationCallback.onLocationResult`: `lastLocation` is `None` when the result
   * carries no fix.
   */
  function OnLocationResult(p: Provider, lastLocation: Option<Location>): (r: Provider)
    ensures lastLocation.None? ==> r == p
    ensures lastLocation.Some? ==>
      && r.latitudeMillis == Rounding.SetScale(lastLocation.value.latitude)
      && r.longitudeMillis == Rounding.SetScale(lastLocation.value.longitude)
    ensures lastLocation.Some? ==>
      && -0.0005 <= Latitude(r) - lastLocation.value.latitude <= 0.0005
      && -0.0005 <= Longitude(r) - lastLocation.value.longitude <= 0.0005
    ensures lastLocation.Some? && lastLocation.value.speed == 0.0 ==>
      r.samplingPeriod == p.samplingPeriod && r.client == p.client
    ensures Valid(p) ==> Valid(r)
  {
    match lastLocation
    case None => p
    case Some(loc) =>
      var q := RecordPosition(p, loc);
      match TargetPeriod(loc.speed)
      case None => q
      case Some(target) =>
        if OutsideBand(target, q.samplingPeriod) then
          StartLocationUpdates(q.(samplingPeriod := target), target)
        else q
  }

  /**
   * The hysteresis rule, both ways: for a moving fix the period changes exactly
   * when the target leaves the band, the new period is the target, and updates
   * are restarted with it; otherwise the client sees no call.
   */
  lemma OnLocationResultHysteresis(p: Provider, loc: Location)
    requires loc.speed != 0.0
    ensures var r := OnLocationResult(p, Some(loc));
      var target := TargetPeriod(loc.speed).value;
      && (r.samplingPeriod != p.samplingPeriod <==> OutsideBand(target, p.samplingPeriod))
      && (OutsideBand(target, p.samplingPeriod) ==>
            && r.samplingPeriod == target
            && r.client.requests == [target * MILLIS_PER_SECOND]
            && r.client.calls == p.client.calls
               + [RemoveLocationUpdates, RequestLocationUpdates(target * MILLIS_PER_SECOND)])
      && (!OutsideBand(target, p.samplingPeriod) ==> r.client == p.client)
  {
  }

  /** From 60 s, a target of 58 is ignored and one of 50 is adopted. */
  lemma HysteresisExamples(p: Provider)
    requires p.samplingPeriod == 60
    ensures !OutsideBand(58, p.samplingPeriod)
    ensures OutsideBand(50, p.samplingPeriod)
    ensures OnLocationResult(p, Some(Location(0.0, 0.0, 100.0 / 58.0))).samplingPeriod == 60
    ensures OnLocationResult(p, Some(Location(0.0, 0.0, 2.0))).samplingPeriod == 50
  {
    assert TargetPeriod(100.0 / 58.0) == Some(58);
    assert TargetPeriod(2.0) == Some(50);
  }

  /** `setupLocationProvider`: the client's last known location, if any, seeds the coordinates. */
  function SetupLocationProvider(p: Provider, lastKnown: Option<Location>): (r: Provider)
    ensures lastKnown.None? ==> r == p
    ensures lastKnown.Some? ==>
      && Rounding.IsHalfEvenOf(lastKnown.value.latitude * Rounding.SCALE as real, r.latitudeMillis)
      && Rounding.IsHalfEvenOf(lastKnown.value.longitude * Rounding.SCALE as real, r.longitudeMillis)
    ensures r.samplingPeriod == p.samplingPeriod && r.client == p.client
  {
    match lastKnown
    case None => p
    case Some(loc) => RecordPosition(p, loc)
  }

  // ---------------------------------------------------------------------------
  // Runs
  // ---------------------------------------------------------------------------

  /** Everything that can happen to the singleton. */
  datatype Event =
    | Setup(lastKnown: Option<Location>)
    | Start(period: int)
    | Stop
    | Fix(lastLocation: Option<Location>)

  function Step(p: Provider, e: Event): Provider {
    match e
    case Setup(l) => SetupLocationProvider(p, l)
    case Start(period) => StartLocationUpdates(p, period)
    case Stop => StopLocationUpdates(p)
    case Fix(l) => OnLocationResult(p, l)
  }

  function Run(p: Provider, events: seq<Event>): Provider
    decreases |events|
  {
    if |events| == 0 then p else Run(Step(p, events[0]), events[1..])
  }

  /**
   * Whatever callers and the positioning service do, the period stays in
   * [5, 60] and the callback is never registered twice.
   */
  lemma {:induction false} RunPreservesValid(p: Provider, events: seq<Event>)
    requires Valid(p)
    ensures Valid(Run(p, events))
    decreases |events|
  {
    if |events| > 0 {
      RunPreservesValid(Step(p, events[0]), events[1..]);
    }
  }

  /** From the initial state every reachable period is within [5, 60]. */
  lemma ReachablePeriodBounded(events: seq<Event>)
    ensures FAST_SAMPLING_PERIOD <= Run(Initial(), events).samplingPeriod <= SLOW_SAMPLING_PERIOD
  {
    RunPreservesValid(Initial(), events);
  }

  /**
   * A fix stores, for each coordinate, the one whole number of thousandths that
   * HALF_EVEN rounding allows, and no multiple of 0.001 lies closer to the fix.
   */
  lemma OnLocationResultRoundsToNearest(p: Provider, loc: Location, lat: int, lon: int)
    ensures var r := OnLocationResult(p, Some(loc));
      && (Rounding.IsHalfEvenOf(loc.latitude * Rounding.SCALE as real, lat) ==> r.latitudeMillis == lat)
      && (Rounding.IsHalfEvenOf(loc.longitude * Rounding.SCALE as real, lon) ==> r.longitudeMillis == lon)
      && Rounding.Abs(Latitude(r) - loc.latitude) <= Rounding.Abs(Rounding.Thousandths(lat) - loc.latitude)
      && Rounding.Abs(Longitude(r) - loc.longitude) <= Rounding.Abs(Rounding.Thousandths(lon) - loc.longitude)
  {
    var r := OnLocationResult(p, Some(loc));
    if Rounding.IsHalfEvenOf(loc.latitude * Rounding.SCALE as real, lat) {
      Rounding.HalfEvenUnique(loc.latitude * Rounding.SCALE as real, lat, r.latitudeMillis);
    }
    if Rounding.IsHalfEvenOf(loc.longitude * Rounding.SCALE as real, lon) {
      Rounding.HalfEvenUnique(loc.longitude * Rounding.SCALE as real, lon, r.longitudeMillis);
    }
    Rounding.SetScaleIsNearest(loc.latitude, lat);
    Rounding.SetScaleIsNearest(loc.longitude, lon);
  }
}

=== FILE: log_in_view_model.dfy ===
/**
 * The log-in form of the phone app: two validated text fields, a password
 * visibility switch, a log-in button and the result of the last authentication
 * attempt. Each view-model operation is a pure function from UI state to UI state.
 *
 * The email pattern, the password hash and the account repository are
 * parameters: the model does not look inside them.
 */
module LogInViewModel {
  import opened Common

  /** Longest accepted email or password, in characters. */
  const MAX_INPUT_LENGTH: int := 254

  datatype EmailValidationResult =
    EMPTY | TOO_LONG | DO_NOT_EXIST | ALREADY_EXISTS | INVALID_FORMAT | VALID

  datatype PasswordValidationResult =
    EMPTY | TOO_SHORT | TOO_LONG | NO_DIGITS | NO_LOWERCASE | NO_UPPERCASE | NO_SPECIAL_CHAR | VALID

  /** The repository's error kind, by name; its values are not part of this model. */
  type AccountError = string

  /** What the account repository answers to an authentication attempt. */
  type AuthResult = ServiceResult<(), AccountError>

  datatype LogInUiState = LogInUiState(
    email: string,
    password: string,
    emailStatus: EmailValidationResult,
    passwordStatus: PasswordValidationResult,
    isPasswordVisible: bool,
    isLogInButtonEnabled: bool,
    authenticationResult: Option<AuthResult>)

  // ---------------------------------------------------------------------------
  // Validators
  // ---------------------------------------------------------------------------

  /**
   * `emailValidation`: emptiness first, then length, then the address pattern
   * (`isEmailAddress`), so an over-long string is TOO_LONG whatever its format.
   */
  function EmailValidation(email: string, isEmailAddress: string -> bool): (r: EmailValidationResult)
    ensures r == EmailValidationResult.EMPTY <==> |email| == 0
    ensures r == EmailValidationResult.TOO_LONG <==> |email| > MAX_INPUT_LENGTH
    ensures r == INVALID_FORMAT <==> 0 < |email| <= MAX_INPUT_LENGTH && !isEmailAddress(email)
    ensures r == EmailValidationResult.VALID <==> 0 < |email| <= MAX_INPUT_LENGTH && isEmailAddress(email)
  {
    if |email| == 0 then EmailValidationResult.EMPTY
    else if |email| > MAX_INPUT_LENGTH then EmailValidationResult.TOO_LONG
    else if !isEmailAddress(email) then INVALID_FORMAT
    else EmailValidationResult.VALID
  }

  /** `passwordValidation`: EMPTY, TOO_LONG past 254 characters, otherwise VALID. */
  function PasswordValidation(password: string): (r: PasswordValidationResult)
    ensures r == PasswordValidationResult.EMPTY <==> |password| == 0
    ensures r == PasswordValidationResult.TOO_LONG <==> |password| > MAX_INPUT_LENGTH
    ensures r == PasswordValidationResult.VALID <==> 0 < |password| <= MAX_INPUT_LENGTH
  {
    if |password| == 0 then PasswordValidationResult.EMPTY
    else if |password| > MAX_INPUT_LENGTH then PasswordValidationResult.TOO_LONG
    else PasswordValidationResult.VALID
  }

  // ---------------------------------------------------------------------------
  // State transitions
  // ---------------------------------------------------------------------------

  /** The statuses on screen are those of the texts on screen. */
  predicate StatusesMatch(s: LogInUiState, isEmailAddress: string -> bool) {
    && s.emailStatus == EmailValidation(s.email, isEmailAddress)
    && s.passwordStatus == PasswordValidation(s.password)
  }

  /** The button is enabled exactly when both fields are valid. */
  predicate ButtonReflectsValidity(s: LogInUiState) {
    s.isLogInButtonEnabled <==>
      s.emailStatus == EmailValidationResult.VALID && s.passwordStatus == PasswordValidationResult.VALID
  }

  /** `idleResult`: forget the last authentication result. */
  function IdleResult(s: LogInUiState): (r: LogInUiState)
    ensures r.authenticationResult.None?
    ensures r.(authenticationResult := s.authenticationResult) == s
  {
    s.(authenticationResult := None)
  }

  /** `anyEmptyField`: one of the two texts is the empty string. */
  function AnyEmptyField(s: LogInUiState): (empty: bool)
    ensures empty <==> s.email == "" || s.password == ""
  {
    |s.email| == 0 || |s.password| == 0
  }

  /**
   * Once the statuses match the texts, a field is empty exactly when its status
   * is EMPTY; so two VALID statuses already imply that no field is empty.
   */
  lemma AnyEmptyFieldIsEmptyStatus(s: LogInUiState, isEmailAddress: string -> bool)
    requires StatusesMatch(s, isEmailAddress)
    ensures AnyEmptyField(s) <==>
      s.emailStatus == EmailValidationResult.EMPTY || s.passwordStatus == PasswordValidationResult.EMPTY
    ensures s.emailStatus == EmailValidationResult.VALID && s.passwordStatus == PasswordValidationResult.VALID ==>
      !AnyEmptyField(s)
  {
  }

  /** `updateLogInButton`: enable the button when no field is empty and both are valid. */
  function UpdateLogInButton(s: LogInUiState): (r: LogInUiState)
    ensures r.(isLogInButtonEnabled := s.isLogInButtonEnabled) == s
    ensures r.isLogInButtonEnabled ==> |r.email| > 0 && |r.password| > 0
    ensures !AnyEmptyField(s) ==> ButtonReflectsValidity(r)
  {
    s.(isLogInButtonEnabled := !AnyEmptyField(s)
        && s.emailStatus == EmailValidationResult.VALID
        && s.passwordStatus == PasswordValidationResult.VALID)
  }

  /** `updateEmail`: clear the result, store and validate the email, refresh the button. */
  function UpdateEmail(s: LogInUiState, email: string, isEmailAddress: string -> bool): (r: LogInUiState)
    ensures r.email == email && r.emailStatus == EmailValidation(email, isEmailAddress)
    ensures r.authenticationResult.None?
    ensures r.password == s.password && r.passwordStatus == s.passwordStatus
    ensures r.isPasswordVisible == s.isPasswordVisible
    ensures r.isLogInButtonEnabled <==>
      && r.emailStatus == EmailValidationResult.VALID
      && r.passwordStatus == PasswordValidationResult.VALID
      && |r.password| > 0
  {
    var idle := IdleResult(s);
    UpdateLogInButton(idle.(email := email, emailStatus := EmailValidation(email, isEmailAddress)))
  }

  /** `updatePassword`: clear the result, store and validate the password, refresh the button. */
  function UpdatePassword(s: LogInUiState, password: string): (r: LogInUiState)
    ensures r.password == password && r.passwordStatus == PasswordValidation(password)
    ensures r.authenticationResult.None?
    ensures r.email == s.email && r.emailStatus == s.emailStatus
    ensures r.isPasswordVisible == s.isPasswordVisible
    ensures r.isLogInButtonEnabled <==>
      && r.emailStatus == EmailValidationResult.VALID
      && r.passwordStatus == PasswordValidationResult.VALID
      && |r.email| > 0
  {
    var idle := IdleResult(s);
    UpdateLogInButton(idle.(password := password, passwordStatus := PasswordValidation(password)))
  }

  /**
   * Once the statuses match the texts, editing either field keeps them matching
   * and leaves the button enabled exactly when both fields are valid.
   */
  lemma UpdatesKeepButtonInvariant(s: LogInUiState, text: string, isEmailAddress: string -> bool)
    requires StatusesMatch(s, isEmailAddress)
    ensures var r := UpdateEmail(s, text, isEmailAddress);
      StatusesMatch(r, isEmailAddress) && ButtonReflectsValidity(r)
    ensures var r := UpdatePassword(s, text);
      StatusesMatch(r, isEmailAddress) && ButtonReflectsValidity(r)
  {
  }

  /** `togglePasswordVisibility`: flip the visibility, nothing else. */
  function TogglePasswordVisibility(s: LogInUiState): (r: LogInUiState)
    ensures r.isPasswordVisible != s.isPasswordVisible
    ensures r.(isPasswordVisible := s.isPasswordVisible) == s
  {
    s.(isPasswordVisible := !s.isPasswordVisible)
  }

  /** Toggling twice restores the state. */
  lemma ToggleInvolution(s: LogInUiState)
    ensures TogglePasswordVisibility(TogglePasswordVisibility(s)) == s
  {
  }

  /**
   * `login`: clear the result, disable the button, ask the repository to check
   * the email and the hashed password, then show its answer and enable the button.
   */
  function LogIn(s: LogInUiState, hashPassword: string -> string,
                 credentialAuth: (string, string) -> AuthResult): (r: LogInUiState)
    ensures r.authenticationResult == Some(credentialAuth(s.email, hashPassword(s.password)))
    ensures r.isLogInButtonEnabled
    ensures r.(authenticationResult := s.authenticationResult, isLogInButtonEnabled := s.isLogInButtonEnabled) == s
  {
    var idle := IdleResult(s);
    var waiting := idle.(isLogInButtonEnabled := false);
    var result := credentialAuth(waiting.email, hashPassword(waiting.password));
    waiting.(authenticationResult := Some(result), isLogInButtonEnabled := true)
  }

  /** `googleLogin`: as `login`, with the repository's Google sign-in answer. */
  function GoogleLogIn(s: LogInUiState, googleAuth: AuthResult): (r: LogInUiState)
    ensures r.authenticationResult == Some(googleAuth)
    ensures r.isLogInButtonEnabled
    ensures r.(authenticationResult := s.authenticationResult, isLogInButtonEnabled := s.isLogInButtonEnabled) == s
  {
    var idle := IdleResult(s);
    var waiting := idle.(isLogInButtonEnabled := false);
    waiting.(authenticationResult := Some(googleAuth), isLogInButtonEnabled := true)
  }

  /**
   * After an attempt the button is enabled even when a field is invalid: the
   * button invariant holds after edits, not after log-in attempts.
   */
  lemma LogInEnablesButtonRegardless(hashPassword: string -> string,
                                     credentialAuth: (string, string) -> AuthResult,
                                     isEmailAddress: string -> bool)
    ensures var s := UpdatePassword(UpdateEmail(
        LogInUiState("", "", EmailValidationResult.EMPTY, PasswordValidationResult.EMPTY, false, false, None),
        "", isEmailAddress), "secret");
      && StatusesMatch(s, isEmailAddress) && ButtonReflectsValidity(s)
      && !ButtonReflectsValidity(LogIn(s, hashPassword, credentialAuth))
  {
  }

  /**
   * From a form whose statuses match its texts: clearing the result and toggling
   * the visibility keep the button invariant; a log-in attempt, by credentials or
   * by Google, keeps the statuses matching and breaks the invariant exactly when
   * a field is not VALID.
   */
  lemma AttemptsAndButtonInvariant(s: LogInUiState, hashPassword: string -> string,
                                   credentialAuth: (string, string) -> AuthResult,
                                   googleAuth: AuthResult, isEmailAddress: string -> bool)
    requires StatusesMatch(s, isEmailAddress)
    ensures ButtonReflectsValidity(s) ==>
      && StatusesMatch(IdleResult(s), isEmailAddress) && ButtonReflectsValidity(IdleResult(s))
      && StatusesMatch(TogglePasswordVisibility(s), isEmailAddress)
      && ButtonReflectsValidity(TogglePasswordVisibility(s))
    ensures var r := LogIn(s, hashPassword, credentialAuth);
      && StatusesMatch(r, isEmailAddress)
      && (ButtonReflectsValidity(r) <==>
            s.emailStatus == EmailValidationResult.VALID && s.passwordStatus == PasswordValidationResult.VALID)
    ensures var r := GoogleLogIn(s, googleAuth);
      && StatusesMatch(r, isEmailAddress)
      && (ButtonReflectsValidity(r) <==>
            s.emailStatus == EmailValidationResult.VALID && s.passwordStatus == PasswordValidationResult.VALID)
  {
  }
}

=== FILE: rounding.dfy ===
/**
 * `BigDecimal(x).setScale(3, RoundingMode.HALF_EVEN)` over exact reals: the
 * location provider keeps coordinates as whole thousandths of a degree, rounding
 * to the nearest thousandth and breaking ties towards the even neighbour.
 */
module Rounding {

  /** The scale 10^3: a coordinate is kept as a whole number of thousandths (three decimal places). */
  const SCALE: int := 1000

  /** `n` is the HALF_EVEN rounding of `y` to an integer. */
  predicate IsHalfEvenOf(y: real, n: int) {
    var d := n as real - y;
    && -0.5 <= d <= 0.5
    && ((d == 0.5 || d == -0.5) ==> n % 2 == 0)
  }

  /** Round to the nearest integer; on an exact tie pick the even one. */
  function RoundHalfEven(y: real): (n: int)
    ensures IsHalfEvenOf(y, n)
  {
    var f := y.Floor;
    var frac := y - f as real;
    if frac < 0.5 then f
    else if frac > 0.5 then f + 1
    else if f % 2 == 0 then f
    else f + 1
  }

  /** HALF_EVEN rounding is a function: two candidates for the same value agree. */
  lemma HalfEvenUnique(y: real, n: int, m: int)
    requires IsHalfEvenOf(y, n) && IsHalfEvenOf(y, m)
    ensures n == m
  {
  }

  /** A value expressed in thousandths, as a real. */
  function Thousandths(n: int): real {
    n as real / SCALE as real
  }

  /**
   * `setScale(3, HALF_EVEN)`, as a whole number of thousandths:
   * within half a thousandth of the input, ties to an even last digit.
   */
  function SetScale(x: real): (n: int)
    ensures IsHalfEvenOf(x * SCALE as real, n)
    ensures -0.0005 <= Thousandths(n) - x <= 0.0005
  {
    RoundHalfEven(x * SCALE as real)
  }

  function Abs(x: real): real {
    if x < 0.0 then -x else x
  }

  /** No multiple of 0.001 is closer to the input than the rounded value. */
  lemma SetScaleIsNearest(x: real, m: int)
    ensures Abs(Thousandths(SetScale(x)) - x) <= Abs(Thousandths(m) - x)
  {
    var n := SetScale(x);
    var y := x * SCALE as real;
    if Abs(m as real - y) < Abs(n as real - y) {
      assert -0.5 < m as real - y < 0.5;
      assert -1.0 < (m - n) as real < 1.0;
      assert m == n;
    }
    assert Thousandths(n) - x == (n as real - y) / 1000.0;
    assert Thousandths(m) - x == (m as real - y) / 1000.0;
  }

  /** Rounding an already rounded coordinate changes nothing. */
  lemma SetScaleIdempotent(n: int)
    ensures SetScale(Thousandths(n)) == n
  {
    assert Thousandths(n) * SCALE as real == n as real;
    HalfEvenUnique(n as real, n, SetScale(Thousandths(n)));
  }

  /**
   * Ties go to the even last digit, in both directions and for negative values.
   * The tie inputs are exact binary fractions, so a `Double` holds them exactly.
   */
  lemma SetScaleTies()
    ensures SetScale(0.0625) == 62
    ensures SetScale(0.1875) == 188
    ensures SetScale(-0.0625) == -62
    ensures SetScale(45.4996) == 45500
  {
    HalfEvenUnique(0.0625 * 1000.0, 62, SetScale(0.0625));
    HalfEvenUnique(0.1875 * 1000.0, 188, SetScale(0.1875));
    HalfEvenUnique(-0.0625 * 1000.0, -62, SetScale(-0.0625));
    HalfEvenUnique(45.4996 * 1000.0, 45500, SetScale(45.4996));
  }
}

=== FILE: stress_data_dao.dfy ===
/**
 * The stress-data access object of the phone app. A batch of raw samples is
 * written twice: once, sample by sample, into the durable document store
 * (`account/<email>/RawData/<timestamp>`), and once into the fast tree store
 * (`<local part of the email>/RawData/<timestamp>`), whose partition is cleared
 * and rewritten as a whole. Both stores can be read back.
 *
 * The two remote stores are maps; a partition that is empty stands for one that
 * does not exist. Whether a remote call throws is decided by a `Fault` oracle:
 * `fault(k)` holds when the k-th remote call of the operation throws, and a
 * call that throws has no effect. The signed-in account's email is a parameter,
 * `None` when nobody is signed in.
 */
module StressDataDao {
  import opened Common
  import opened Decimal

  /** The error kinds of the data layer. */
  datatype StressErrorType = NETWORK_ERROR | COMMUNICATION_PROBLEM | NOACCOUNT

  /** One sample from the wearable. */
  datatype StressRawData = StressRawData(timestamp: Long, heartrateSensor: real, skinTemperatureSensor: real)

  /** A stored field value: what a read may find where a `Double` is expected. */
  datatype Value = LongValue(l: int) | DoubleValue(d: real) | TextValue(t: string)

  /** A stored document (durable store) or child node (fast store): field name to value. */
  type Record = map<string, Value>

  /** The samples of one account in one store: document id or child key to record. */
  type Partition = map<string, Record>

  /** Durable store partitions are keyed by email, fast store partitions by the email's local part. */
  datatype Stores = Stores(durable: map<string, Partition>, fast: map<string, Partition>)

  /** `fault(k)`: the k-th remote call of the operation throws. */
  type Fault = nat -> bool

  /** How a call ended: with a result, or with an exception escaping to the caller. */
  datatype Outcome<+T> = Returned(result: ServiceResult<T, StressErrorType>) | Threw

  /** How a write ended, and the stores after it. */
  datatype Response<+T> = Response(outcome: Outcome<T>, after: Stores)

  const TIMESTAMP: string := "timestamp"
  const HEART_RATE: string := "heartrateSensor"
  const SKIN_TEMPERATURE: string := "skinTemperatureSensor"

  function DurablePartition(st: Stores, email: string): Partition {
    if email in st.durable then st.durable[email] else map[]
  }

  function FastPartition(st: Stores, key: string): Partition {
    if key in st.fast then st.fast[key] else map[]
  }

  /** No remote call with index in [lo, hi) throws. */
  predicate NoFault(fault: Fault, lo: nat, hi: nat) {
    forall k: nat :: lo <= k < hi ==> !fault(k)
  }

  /** The oracle of the calls that come after the first `n`. */
  function Shift(fault: Fault, n: nat): Fault {
    (k: nat) => fault(n + k)
  }

  // ---------------------------------------------------------------------------
  // Keys and records
  // ---------------------------------------------------------------------------

  /** `substringBefore("@")`: the whole string when it holds no '@'. */
  function LocalPart(email: string): (key: string)
    ensures key <= email
    ensures '@' !in key
    ensures key == email || email[|key|] == '@'
  {
    if |email| == 0 || email[0] == '@' then ""
    else [email[0]] + LocalPart(email[1..])
  }

  /** The partition key is everything before the first '@'. */
  lemma LocalPartBeforeFirstAt(email: string, i: nat)
    requires i < |email| && email[i] == '@' && '@' !in email[..i]
    ensures LocalPart(email) == email[..i]
  {
  }

  /** Two different accounts can share a fast-store partition. */
  lemma LocalPartCollision()
    ensures LocalPart("alice@work.example") == LocalPart("alice@home.example") == "alice"
  {
    LocalPartBeforeFirstAt("alice@work.example", 5);
    LocalPartBeforeFirstAt("alice@home.example", 5);
  }

  /** Characters the tree store refuses in a child path. */
  const FORBIDDEN_KEY_CHARS: string := ".#$[]"

  /** `dbreference.child(key)` accepts the key, rather than throwing. */
  function ValidChildKey(key: string): (accepted: bool)
    ensures accepted <==> '.' !in key && '#' !in key && '$' !in key && '[' !in key && ']' !in key
  {
    forall i :: 0 <= i < |key| ==> key[i] !in FORBIDDEN_KEY_CHARS
  }

  /**
   * The tree store refuses an account's partition exactly when a forbidden
   * character comes before the first '@' of its email.
   */
  lemma RefusedEmails(email: string)
    ensures !ValidChildKey(LocalPart(email)) <==>
      exists i :: 0 <= i < |email| && '@' !in email[..i + 1] && email[i] in FORBIDDEN_KEY_CHARS
  {
    var key := LocalPart(email);
    if !ValidChildKey(key) {
      var j :| 0 <= j < |key| && key[j] in FORBIDDEN_KEY_CHARS;
      assert email[..j + 1] == key[..j + 1];
      assert email[j] in FORBIDDEN_KEY_CHARS && '@' !in email[..j + 1];
    }
    if i :| 0 <= i < |email| && '@' !in email[..i + 1] && email[i] in FORBIDDEN_KEY_CHARS {
      assert key[i] == email[i];
    }
  }

  /** `record.get(field) as Double`: `None` when the cast throws (field missing or not a Double). */
  function CastDouble(rec: Record, field: string): Option<real> {
    if field in rec && rec[field].DoubleValue? then Some(rec[field].d) else None
  }

  /** A sample's document id and child key: its timestamp in decimal. */
  function DocumentId(d: StressRawData): string {
    ToString(d.timestamp)
  }

  /**
   * The three fields written for a sample, in either store: the timestamp as a
   * `Long` and the two readings where a reader expects a `Double`.
   */
  function Encode(d: StressRawData): (r: Record)
    ensures TIMESTAMP in r && r[TIMESTAMP] == LongValue(d.timestamp)
    ensures CastDouble(r, HEART_RATE) == Some(d.heartrateSensor)
    ensures CastDouble(r, SKIN_TEMPERATURE) == Some(d.skinTemperatureSensor)
  {
    map[TIMESTAMP := LongValue(d.timestamp),
        HEART_RATE := DoubleValue(d.heartrateSensor),
        SKIN_TEMPERATURE := DoubleValue(d.skinTemperatureSensor)]
  }

  /** A number with no fractional part. */
  predicate WholeNumber(x: real) {
    x.Floor as real == x
  }

  /** `value as Number` then `toDouble()`: the number a value holds, whatever its type. */
  function AsNumber(v: Value): Option<real> {
    match v
    case LongValue(l) => Some(l as real)
    case DoubleValue(x) => Some(x)
    case TextValue(_) => None
  }

  /**
   * What the tree store hands back for a value written to it. It keeps numbers
   * untyped, so a `Double` with no fractional part comes back as a `Long`.
   */
  function TreeNumber(v: Value): (r: Value)
    ensures AsNumber(r) == AsNumber(v)
    ensures r.DoubleValue? <==> v.DoubleValue? && !WholeNumber(v.d)
    ensures !v.DoubleValue? ==> r == v
  {
    match v
    case DoubleValue(x) => if WholeNumber(x) then LongValue(x.Floor) else v
    case _ => v
  }

  /** A record as the tree store holds it. */
  function TreeRecord(rec: Record): Record {
    map f | f in rec :: TreeNumber(rec[f])
  }

  /** A partition as the tree store holds it. */
  function TreePartition(part: Partition): Partition {
    map key | key in part :: TreeRecord(part[key])
  }

  /** Both readings of a sample have a fractional part. */
  predicate FractionalReadings(d: StressRawData) {
    !WholeNumber(d.heartrateSensor) && !WholeNumber(d.skinTemperatureSensor)
  }

  /** What reading one stored record yields. */
  datatype Decoded = Skipped | Parsed(sample: StressRawData) | CastFailed

  /**
   * One document of `getRawData`: a non-numeric id skips it; for a numeric id
   * the two sensor fields are cast, and a failed cast throws.
   */
  function ReadDocument(id: string, rec: Record): (r: Decoded)
    ensures r.Skipped? <==> ToLongOrNull(id).None?
    ensures r.CastFailed? <==>
      ToLongOrNull(id).Some? && (CastDouble(rec, HEART_RATE).None? || CastDouble(rec, SKIN_TEMPERATURE).None?)
    ensures r.Parsed? ==>
      && r.sample.timestamp == ToLongOrNull(id).value
      && rec[HEART_RATE] == DoubleValue(r.sample.heartrateSensor)
      && rec[SKIN_TEMPERATURE] == DoubleValue(r.sample.skinTemperatureSensor)
  {
    match ToLongOrNull(id)
    case None => Skipped
    case Some(t) =>
      match (CastDouble(rec, HEART_RATE), CastDouble(rec, SKIN_TEMPERATURE))
      case (Some(hr), Some(st)) => Parsed(StressRawData(t, hr, st))
      case _ => CastFailed
  }

  /**
   * One child of `fastget`: both sensor fields are cast first, whatever the key,
   * and a failed cast throws; only then is a non-numeric key skipped.
   */
  function ReadChild(key: string, rec: Record): (r: Decoded)
    ensures r.CastFailed? <==>
      CastDouble(rec, HEART_RATE).None? || CastDouble(rec, SKIN_TEMPERATURE).None?
    ensures r.Skipped? <==> !r.CastFailed? && ToLongOrNull(key).None?
    ensures r.Parsed? ==>
      && r.sample.timestamp == ToLongOrNull(key).value
      && rec[HEART_RATE] == DoubleValue(r.sample.heartrateSensor)
      && rec[SKIN_TEMPERATURE] == DoubleValue(r.sample.skinTemperatureSensor)
  {
    match (CastDouble(rec, HEART_RATE), CastDouble(rec, SKIN_TEMPERATURE))
    case (Some(hr), Some(st)) =>
      (match ToLongOrNull(key)
       case None => Skipped
       case Some(t) => Parsed(StressRawData(t, hr, st)))
    case _ => CastFailed
  }

  /**
   * A written sample reads back as itself from the document store, which keeps
   * number types. From the tree store it reads back only when both readings have
   * a fractional part; otherwise a reading comes back as a `Long` and the cast throws.
   */
  lemma ReadBackWritten(d: StressRawData)
    ensures ReadDocument(DocumentId(d), Encode(d)) == Parsed(d)
    ensures ReadChild(DocumentId(d), TreeRecord(Encode(d))) ==
      if FractionalReadings(d) then Parsed(d) else CastFailed
  {
    ToStringRoundTrip(d.timestamp);
    var rec := TreeRecord(Encode(d));
    assert rec[HEART_RATE] == TreeNumber(DoubleValue(d.heartrateSensor));
    assert rec[SKIN_TEMPERATURE] == TreeNumber(DoubleValue(d.skinTemperatureSensor));
  }

  /** The two readers disagree on a record with a non-numeric name and a missing field. */
  lemma ReadersDisagreeOnMalformedRecord()
    ensures ReadDocument("summary", map[]) == Skipped
    ensures ReadChild("summary", map[]) == CastFailed
  {
    assert !IsDigit("summary"[0]);
  }

  // ---------------------------------------------------------------------------
  // Per-record upsert
  // ---------------------------------------------------------------------------

  function Ids(batch: seq<StressRawData>): set<string> {
    set d | d in batch :: DocumentId(d)
  }

  /** No later sample of the batch carries the timestamp of `batch[i]`. */
  predicate LastWithTimestamp(batch: seq<StressRawData>, i: nat)
    requires i < |batch|
  {
    forall j :: i < j < |batch| ==> batch[j].timestamp != batch[i].timestamp
  }

  /** The partition after writing the samples one at a time, each replacing the record named after it. */
  function Upsert(part: Partition, batch: seq<StressRawData>): (r: Partition)
    ensures part.Keys <= r.Keys
    decreases |batch|
  {
    if |batch| == 0 then part
    else Upsert(part[DocumentId(batch[0]) := Encode(batch[0])], batch[1..])
  }

  lemma IdsCons(batch: seq<StressRawData>)
    requires |batch| > 0
    ensures Ids(batch) == {DocumentId(batch[0])} + Ids(batch[1..])
  {
    assert batch == [batch[0]] + batch[1..];
  }

  /** An upsert adds one id per sample and removes none. */
  lemma {:induction false} UpsertKeys(part: Partition, batch: seq<StressRawData>)
    ensures Upsert(part, batch).Keys == part.Keys + Ids(batch)
    decreases |batch|
  {
    if |batch| > 0 {
      UpsertKeys(part[DocumentId(batch[0]) := Encode(batch[0])], batch[1..]);
      IdsCons(batch);
    }
  }

  /** Records whose id no sample carries are left as they were. */
  lemma {:induction false} UpsertKeepsOthers(part: Partition, batch: seq<StressRawData>, id: string)
    requires id in part && id !in Ids(batch)
    ensures id in Upsert(part, batch) && Upsert(part, batch)[id] == part[id]
    decreases |batch|
  {
    if |batch| > 0 {
      IdsCons(batch);
      UpsertKeepsOthers(part[DocumentId(batch[0]) := Encode(batch[0])], batch[1..], id);
    }
  }

  /** The record under a sample's id is that of the last sample with its timestamp. */
  lemma {:induction false} UpsertLastWins(part: Partition, batch: seq<StressRawData>, i: nat)
    requires i < |batch| && LastWithTimestamp(batch, i)
    ensures DocumentId(batch[i]) in Upsert(part, batch)
    ensures Upsert(part, batch)[DocumentId(batch[i])] == Encode(batch[i])
    decreases |batch|
  {
    var d0 := batch[0];
    var part' := part[DocumentId(d0) := Encode(d0)];
    var rest := batch[1..];
    if i == 0 {
      forall d | d in rest ensures DocumentId(d) != DocumentId(d0) {
        var j :| 0 <= j < |rest| && rest[j] == d;
        assert batch[j + 1] == d;
        ToStringInjective(d.timestamp, d0.timestamp);
      }
      UpsertKeepsOthers(part', rest, DocumentId(d0));
    } else {
      assert rest[i - 1] == batch[i];
      assert LastWithTimestamp(rest, i - 1);
      UpsertLastWins(part', rest, i - 1);
    }
  }

  /** Every id a batch writes holds the record of one of its samples. */
  lemma {:induction false} UpsertFromBatch(part: Partition, batch: seq<StressRawData>, id: string)
    requires id in Ids(batch)
    ensures id in Upsert(part, batch)
    ensures exists d :: d in batch && DocumentId(d) == id && Upsert(part, batch)[id] == Encode(d)
    decreases |batch|
  {
    var d0 := batch[0];
    var part' := part[DocumentId(d0) := Encode(d0)];
    var rest := batch[1..];
    IdsCons(batch);
    if id in Ids(rest) {
      UpsertFromBatch(part', rest, id);
      var d :| d in rest && DocumentId(d) == id && Upsert(part', rest)[id] == Encode(d);
      assert d in batch;
    } else {
      UpsertKeepsOthers(part', rest, id);
      assert Upsert(part, batch)[id] == Encode(d0);
    }
  }

  /**
   * What an upsert leaves: the old ids plus one per sample; records with other ids
   * untouched; each sample's record is that of the last sample with its timestamp.
   */
  lemma UpsertContents(part: Partition, batch: seq<StressRawData>)
    ensures Upsert(part, batch).Keys == part.Keys + Ids(batch)
    ensures forall id :: id in part && id !in Ids(batch) ==> Upsert(part, batch)[id] == part[id]
    ensures forall i :: 0 <= i < |batch| && LastWithTimestamp(batch, i) ==>
      Upsert(part, batch)[DocumentId(batch[i])] == Encode(batch[i])
    ensures forall id :: id in Ids(batch) ==>
      exists d :: d in batch && DocumentId(d) == id && Upsert(part, batch)[id] == Encode(d)
  {
    UpsertKeys(part, batch);
    forall id | id in part && id !in Ids(batch) ensures Upsert(part, batch)[id] == part[id] {
      UpsertKeepsOthers(part, batch, id);
    }
    forall i | 0 <= i < |batch| && LastWithTimestamp(batch, i)
      ensures Upsert(part, batch)[DocumentId(batch[i])] == Encode(batch[i])
    {
      UpsertLastWins(part, batch, i);
    }
    forall id | id in Ids(batch)
      ensures exists d :: d in batch && DocumentId(d) == id && Upsert(part, batch)[id] == Encode(d)
    {
      UpsertFromBatch(part, batch, id);
    }
  }

  /** The records a batch writes do not depend on what the partition held before. */
  lemma {:induction false} UpsertOverwrites(p: Partition, q: Partition, batch: seq<StressRawData>, id: string)
    requires id in Ids(batch)
    ensures id in Upsert(p, batch) && id in Upsert(q, batch)
    ensures Upsert(p, batch)[id] == Upsert(q, batch)[id]
    decreases |batch|
  {
    UpsertContents(p, batch);
    UpsertContents(q, batch);
    var d0 := batch[0];
    var rest := batch[1..];
    IdsCons(batch);
    if id in Ids(rest) {
      UpsertOverwrites(p[DocumentId(d0) := Encode(d0)], q[DocumentId(d0) := Encode(d0)], rest, id);
    } else {
      UpsertContents(p[DocumentId(d0) := Encode(d0)], rest);
      UpsertContents(q[DocumentId(d0) := Encode(d0)], rest);
    }
  }

  /** Re-sending a batch to the durable store changes nothing: writes are idempotent overwrites. */
  lemma UpsertIdempotent(part: Partition, batch: seq<StressRawData>)
    ensures Upsert(Upsert(part, batch), batch) == Upsert(part, batch)
  {
    var once := Upsert(part, batch);
    var twice := Upsert(once, batch);
    UpsertContents(part, batch);
    UpsertContents(once, batch);
    forall id | id in twice ensures twice[id] == once[id] {
      if id in Ids(batch) {
        UpsertOverwrites(once, part, batch, id);
        UpsertOverwrites(part, part, batch, id);
      }
    }
  }

  /** Progress of a run of writes: the partition reached, and the index of the write that threw. */
  datatype Progress = Progress(part: Partition, failedAt: Option<nat>)

  /**
   * Write `batch[i..]` into `part` one sample at a time, in order; write k throws
   * when `fault(k)` and ends the run.
   */
  function WriteFrom(part: Partition, batch: seq<StressRawData>, fault: Fault, i: nat): (r: Progress)
    requires i <= |batch|
    ensures r.failedAt.None? <==> NoFault(fault, i, |batch|)
    ensures r.failedAt.None? ==> r.part == Upsert(part, batch[i..])
    ensures r.failedAt.Some? ==>
      && i <= r.failedAt.value < |batch|
      && fault(r.failedAt.value)
      && NoFault(fault, i, r.failedAt.value)
      && r.part == Upsert(part, batch[i..r.failedAt.value])
    decreases |batch| - i
  {
    if i == |batch| then Progress(part, None)
    else if fault(i) then Progress(part, Some(i))
    else
      assert batch[i..][1..] == batch[i + 1..];
      assert forall k :: i < k <= |batch| ==> batch[i..k][1..] == batch[i + 1..k];
      WriteFrom(part[DocumentId(batch[i]) := Encode(batch[i])], batch, fault, i + 1)
  }

  // ---------------------------------------------------------------------------
  // Writes
  // ---------------------------------------------------------------------------

  /**
   * `fastInsert`: with no account, report NOACCOUNT without touching a store;
   * otherwise resolve the partition (which throws for a key the tree store
   * refuses), clear it (call 0) and write every sample into it (calls 1..);
   * any exception there reports COMMUNICATION_PROBLEM.
   */
  function FastInsert(st: Stores, account: Option<string>, batch: seq<StressRawData>, fault: Fault): (r: Response<()>)
    ensures r.after.durable == st.durable
    ensures account.None? ==> r == Response(Returned(Failure(NOACCOUNT)), st)
    ensures account.Some? && !ValidChildKey(LocalPart(account.value)) ==> r == Response(Threw, st)
    ensures account.Some? && ValidChildKey(LocalPart(account.value)) ==> r.outcome.Returned?
    ensures r.outcome.Returned? && r.outcome.result.Failure? ==>
      r.outcome.result.error == (if account.None? then NOACCOUNT else COMMUNICATION_PROBLEM)
    ensures r.outcome == Returned(Success(())) <==>
      account.Some? && ValidChildKey(LocalPart(account.value)) && NoFault(fault, 0, |batch| + 1)
    ensures r.outcome == Returned(Success(())) ==>
      FastPartition(r.after, LocalPart(account.value)) == TreePartition(Upsert(map[], batch))
    ensures account.Some? ==> forall key :: key != LocalPart(account.value) ==>
      FastPartition(r.after, key) == FastPartition(st, key)
  {
    match account
    case None => Response(Returned(Failure(NOACCOUNT)), st)
    case Some(email) =>
      var key := LocalPart(email);
      if !ValidChildKey(key) then Response(Threw, st)
      else if fault(0) then Response(Returned(Failure(COMMUNICATION_PROBLEM)), st)
      else
        var progress := WriteFrom(map[], batch, Shift(fault, 1), 0);
        assert NoFault(Shift(fault, 1), 0, |batch|) <==> NoFault(fault, 1, |batch| + 1) by {
          assert forall k: nat :: Shift(fault, 1)(k) == fault(k + 1);
          if !NoFault(fault, 1, |batch| + 1) {
            var k: nat :| 1 <= k < |batch| + 1 && fault(k);
            assert Shift(fault, 1)(k - 1);
          }
        }
        assert batch[0..] == batch;
        var after := st.(fast := st.fast[key := TreePartition(progress.part)]);
        if progress.failedAt.Some? then Response(Returned(Failure(COMMUNICATION_PROBLEM)), after)
        else Response(Returned(Success(())), after)
  }

  /** After a successful `fastInsert`, the same call again leaves everything as it is. */
  lemma FastInsertIdempotent(st: Stores, account: Option<string>, batch: seq<StressRawData>, fault: Fault)
    requires FastInsert(st, account, batch, fault).outcome == Returned(Success(()))
    ensures var once := FastInsert(st, account, batch, fault);
      FastInsert(once.after, account, batch, fault) == once
  {
    var once := FastInsert(st, account, batch, fault);
    var key := LocalPart(account.value);
    var twice := FastInsert(once.after, account, batch, fault);
    assert twice.after.fast.Keys == once.after.fast.Keys;
  }

  /**
   * The durable phase of `insertRawData`: one upsert per sample into the
   * account's collection, in batch order (calls 0..|batch|-1).
   */
  function DurableWrites(st: Stores, email: string, batch: seq<StressRawData>, fault: Fault): (r: (Stores, Option<nat>))
    ensures r.0.fast == st.fast
    ensures forall other :: other != email ==> DurablePartition(r.0, other) == DurablePartition(st, other)
    ensures r.1.None? <==> NoFault(fault, 0, |batch|)
    ensures r.1.None? ==> DurablePartition(r.0, email) == Upsert(DurablePartition(st, email), batch)
    ensures r.1.Some? ==>
      && r.1.value < |batch| && fault(r.1.value) && NoFault(fault, 0, r.1.value)
      && DurablePartition(r.0, email) == Upsert(DurablePartition(st, email), batch[..r.1.value])
  {
    var progress := WriteFrom(DurablePartition(st, email), batch, fault, 0);
    assert batch[0..] == batch;
    assert progress.failedAt.Some? ==> batch[0..progress.failedAt.value] == batch[..progress.failedAt.value];
    (st.(durable := st.durable[email := progress.part]), progress.failedAt)
  }

  /**
   * `insertRawData`: the durable phase, then `fastInsert` on the calls that follow.
   * A durable write that throws, or an exception out of `fastInsert`, is caught
   * and reported as NETWORK_ERROR; otherwise the verdict is `fastInsert`'s.
   */
  function InsertRawData(st: Stores, account: Option<string>, batch: seq<StressRawData>, fault: Fault): (r: Response<()>)
    ensures r.outcome.Returned?
    ensures account.None? ==> r == Response(Returned(Failure(NOACCOUNT)), st)
    ensures account.Some? && !NoFault(fault, 0, |batch|) ==>
      && r.outcome.result == Failure(NETWORK_ERROR)
      && r.after.fast == st.fast
    ensures account.Some? && NoFault(fault, 0, |batch|) ==>
      DurablePartition(r.after, account.value) == Upsert(DurablePartition(st, account.value), batch)
    ensures account.Some? && NoFault(fault, 0, |batch|) && !ValidChildKey(LocalPart(account.value)) ==>
      r.outcome.result == Failure(NETWORK_ERROR) && r.after.fast == st.fast
    ensures (account.Some? && NoFault(fault, 0, |batch|) && ValidChildKey(LocalPart(account.value))
             && !NoFault(fault, |batch|, 2 * |batch| + 1)) ==>
      r.outcome.result == Failure(COMMUNICATION_PROBLEM)
    ensures r.outcome.result.Success? <==>
      account.Some? && ValidChildKey(LocalPart(account.value)) && NoFault(fault, 0, 2 * |batch| + 1)
    ensures r.outcome.result.Success? ==>
      && DurablePartition(r.after, account.value) == Upsert(DurablePartition(st, account.value), batch)
      && FastPartition(r.after, LocalPart(account.value)) == TreePartition(Upsert(map[], batch))
    ensures account.Some? ==> forall other :: other != account.value ==>
      DurablePartition(r.after, other) == DurablePartition(st, other)
    ensures account.Some? ==> forall key :: key != LocalPart(account.value) ==>
      FastPartition(r.after, key) == FastPartition(st, key)
  {
    match account
    case None => FastInsert(st, None, batch, fault)
    case Some(email) =>
      var (written, failedAt) := DurableWrites(st, email, batch, fault);
      if failedAt.Some? then Response(Returned(Failure(NETWORK_ERROR)), written)
      else
        var fast := FastInsert(written, account, batch, Shift(fault, |batch|));
        assert NoFault(Shift(fault, |batch|), 0, |batch| + 1) <==> NoFault(fault, |batch|, 2 * |batch| + 1) by {
          assert forall k: nat :: Shift(fault, |batch|)(k) == fault(|batch| + k);
          if !NoFault(fault, |batch|, 2 * |batch| + 1) {
            var k: nat :| |batch| <= k < 2 * |batch| + 1 && fault(k);
            assert Shift(fault, |batch|)(k - |batch|);
          }
        }
        match fast.outcome
        case Threw => Response(Returned(Failure(NETWORK_ERROR)), fast.after)
        case Returned(result) =>
          if result.Success? then Response(Returned(Success(())), fast.after) else fast
  }

  /**
   * The durable store keeps what was written before the failing call, and the
   * fast store is not contacted: failing on the 15th of 30 samples leaves the
   * first 14 stored and reports NETWORK_ERROR.
   */
  lemma DurableFailureIsTerminal(st: Stores, email: string, batch: seq<StressRawData>, fault: Fault, k: nat)
    requires k < |batch| && fault(k) && NoFault(fault, 0, k)
    ensures var r := InsertRawData(st, Some(email), batch, fault);
      && r.outcome == Returned(Failure(NETWORK_ERROR))
      && r.after.fast == st.fast
      && DurablePartition(r.after, email) == Upsert(DurablePartition(st, email), batch[..k])
  {
    var (written, failedAt) := DurableWrites(st, email, batch, fault);
    assert failedAt == Some(k);
  }

  /**
   * When every reading of the batch has a fractional part, a freshly written fast
   * partition reads back: every child reads as a sample of the batch, and every
   * sample that is last with its timestamp reads back as itself.
   */
  lemma FastMirrorReadsBack(batch: seq<StressRawData>)
    requires forall i :: 0 <= i < |batch| ==> FractionalReadings(batch[i])
    ensures var part := TreePartition(Upsert(map[], batch));
      && (forall key :: key in part ==> ReadChild(key, part[key]).Parsed? && ReadChild(key, part[key]).sample in batch)
      && (forall i :: 0 <= i < |batch| && LastWithTimestamp(batch, i) ==>
            DocumentId(batch[i]) in part && ReadChild(DocumentId(batch[i]), part[DocumentId(batch[i])]) == Parsed(batch[i]))
  {
    var written := Upsert(map[], batch);
    var part := TreePartition(written);
    UpsertKeys(map[], batch);
    forall key | key in part
      ensures ReadChild(key, part[key]).Parsed? && ReadChild(key, part[key]).sample in batch
    {
      UpsertFromBatch(map[], batch, key);
      var d :| d in batch && DocumentId(d) == key && written[key] == Encode(d);
      ReadBackWritten(d);
    }
    forall i | 0 <= i < |batch| && LastWithTimestamp(batch, i)
      ensures DocumentId(batch[i]) in part && ReadChild(DocumentId(batch[i]), part[DocumentId(batch[i])]) == Parsed(batch[i])
    {
      UpsertLastWins(map[], batch, i);
      ReadBackWritten(batch[i]);
    }
  }

  /** A sample that is last with its timestamp and has a whole-number reading makes the fast partition unreadable. */
  lemma WholeReadingBreaksFastRead(batch: seq<StressRawData>, i: nat)
    requires i < |batch| && LastWithTimestamp(batch, i) && !FractionalReadings(batch[i])
    ensures !ChildrenReadable(TreePartition(Upsert(map[], batch)))
  {
    UpsertLastWins(map[], batch, i);
    ReadBackWritten(batch[i]);
    var key := DocumentId(batch[i]);
    assert key in TreePartition(Upsert(map[], batch));
  }

  /** After a successful write, each sample of the batch reads back from its durable document. */
  lemma DurableReadsBack(st: Stores, email: string, batch: seq<StressRawData>, fault: Fault, i: nat)
    requires InsertRawData(st, Some(email), batch, fault).outcome == Returned(Success(()))
    requires i < |batch| && LastWithTimestamp(batch, i)
    ensures var part := DurablePartition(InsertRawData(st, Some(email), batch, fault).after, email);
      && part == Upsert(DurablePartition(st, email), batch)
      && DocumentId(batch[i]) in part
      && ReadDocument(DocumentId(batch[i]), part[DocumentId(batch[i])]) == Parsed(batch[i])
  {
    UpsertContents(DurablePartition(st, email), batch);
    ReadBackWritten(batch[i]);
  }

  // ---------------------------------------------------------------------------
  // Reads
  // ---------------------------------------------------------------------------

  /** `d` is what some document of the partition reads as. */
  predicate FromDocument(part: Partition, d: StressRawData) {
    exists id :: id in part && ReadDocument(id, part[id]) == Parsed(d)
  }

  /** `d` is what some child of the partition reads as. */
  predicate FromChild(part: Partition, d: StressRawData) {
    exists key :: key in part && ReadChild(key, part[key]) == Parsed(d)
  }

  /** No document's casts fail. */
  predicate DocumentsReadable(part: Partition) {
    forall id :: id in part ==> !ReadDocument(id, part[id]).CastFailed?
  }

  /** No child's casts fail. */
  predicate ChildrenReadable(part: Partition) {
    forall key :: key in part ==> !ReadChild(key, part[key]).CastFailed?
  }

  /**
   * `getRawData(n)`: with no account, an empty success; otherwise one query
   * (call 0) for at most `n` documents, chosen and ordered by the store. A
   * non-positive limit is refused by the query and, like a failing query or a
   * failing cast, reported as NETWORK_ERROR.
   */
  method GetRawData(st: Stores, account: Option<string>, n: int, fault: Fault)
    returns (r: ServiceResult<seq<StressRawData>, StressErrorType>)
    ensures account.None? ==> r == Success([])
    ensures account.Some? && (n <= 0 || fault(0)) ==> r == Failure(NETWORK_ERROR)
    ensures r.Failure? ==> r.error == NETWORK_ERROR
    ensures r.Success? && account.Some? ==>
      && |r.data| <= n
      && forall i :: 0 <= i < |r.data| ==> FromDocument(DurablePartition(st, account.value), r.data[i])
    ensures account.Some? && 0 < n && !fault(0) && |DurablePartition(st, account.value)| <= n ==>
      var part := DurablePartition(st, account.value);
      && (r.Success? <==> DocumentsReadable(part))
      && (r.Success? ==> forall id :: id in part && ReadDocument(id, part[id]).Parsed? ==>
            ReadDocument(id, part[id]).sample in r.data)
  {
    if account.None? {
      return Success([]);
    }
    var part := DurablePartition(st, account.value);
    if n <= 0 || fault(0) {
      return Failure(NETWORK_ERROR);
    }
    var remaining := part.Keys;
    var taken := 0;
    var list: seq<StressRawData> := [];
    while taken < n && remaining != {}
      invariant remaining <= part.Keys
      invariant taken + |remaining| == |part.Keys|
      invariant |list| <= taken <= n
      invariant forall i :: 0 <= i < |list| ==> FromDocument(part, list[i])
      invariant forall id :: id in part && id !in remaining ==> !ReadDocument(id, part[id]).CastFailed?
      invariant forall id :: id in part && id !in remaining && ReadDocument(id, part[id]).Parsed? ==>
        ReadDocument(id, part[id]).sample in list
      decreases remaining
    {
      var id :| id in remaining;
      remaining := remaining - {id};
      taken := taken + 1;
      match ReadDocument(id, part[id]) {
        case Skipped =>
        case CastFailed =>
          return Failure(NETWORK_ERROR);
        case Parsed(d) =>
          list := list + [d];
      }
    }
    return Success(list);
  }

  /**
   * `fastget`: with no account, an empty success; otherwise resolve the
   * partition (which throws for a key the tree store refuses), fetch it (call 0)
   * and read every child. A failing fetch or a failing cast on any child fails
   * the whole read with COMMUNICATION_PROBLEM.
   */
  method FastGet(st: Stores, account: Option<string>, fault: Fault) returns (r: Outcome<seq<StressRawData>>)
    ensures account.None? ==> r == Returned(Success([]))
    ensures account.Some? && !ValidChildKey(LocalPart(account.value)) ==> r == Threw
    ensures account.Some? && ValidChildKey(LocalPart(account.value)) && fault(0) ==>
      r == Returned(Failure(COMMUNICATION_PROBLEM))
    ensures r.Returned? && r.result.Failure? ==> r.result.error == COMMUNICATION_PROBLEM
    ensures account.Some? && ValidChildKey(LocalPart(account.value)) && !fault(0) ==>
      var part := FastPartition(st, LocalPart(account.value));
      && r.Returned?
      && (r.result.Success? <==> ChildrenReadable(part))
      && (r.result.Success? ==>
            && (forall i :: 0 <= i < |r.result.data| ==> FromChild(part, r.result.data[i]))
            && (forall key :: key in part && ReadChild(key, part[key]).Parsed? ==>
                  ReadChild(key, part[key]).sample in r.result.data))
  {
    if account.None? {
      return Returned(Success([]));
    }
    var key := LocalPart(account.value);
    if !ValidChildKey(key) {
      return Threw;
    }
    if fault(0) {
      return Returned(Failure(COMMUNICATION_PROBLEM));
    }
    var part := FastPartition(st, key);
    var remaining := part.Keys;
    var list: seq<StressRawData> := [];
    while remaining != {}
      invariant remaining <= part.Keys
      invariant forall i :: 0 <= i < |list| ==> FromChild(part, list[i])
      invariant forall k :: k in part && k !in remaining ==> !ReadChild(k, part[k]).CastFailed?
      invariant forall k :: k in part && k !in remaining && ReadChild(k, part[k]).Parsed? ==>
        ReadChild(k, part[k]).sample in list
      decreases remaining
    {
      var child :| child in remaining;
      remaining := remaining - {child};
      match ReadChild(child, part[child]) {
        case Skipped =>
        case CastFailed =>
          return Returned(Failure(COMMUNICATION_PROBLEM));
        case Parsed(d) =>
          list := list + [d];
      }
    }
    return Returned(Success(list));
  }

  // ---------------------------------------------------------------------------
  // The partition reference built outside the `try`
  // ---------------------------------------------------------------------------

  /**
   * A dotted local part ("first.last@...") is refused by the tree store, and the
   * exception escapes `fastInsert`; inside `insertRawData` it is caught after the
   * durable phase succeeded, and reported as a network error.
   */
  lemma DottedLocalPartEscapes(st: Stores, batch: seq<StressRawData>, fault: Fault)
    ensures FastInsert(st, Some(DOTTED_EMAIL), batch, fault).outcome == Threw
    ensures NoFault(fault, 0, |batch|) ==>
      InsertRawData(st, Some(DOTTED_EMAIL), batch, fault).outcome == Returned(Failure(NETWORK_ERROR))
  {
    DottedKeyRefused();
  }

  const DOTTED_EMAIL: string := "first.last@example.com"

  lemma DottedKeyRefused()
    ensures !ValidChildKey(LocalPart(DOTTED_EMAIL))
  {
    LocalPartBeforeFirstAt(DOTTED_EMAIL, 10);
    assert LocalPart(DOTTED_EMAIL)[5] == '.';
  }

  /**
   * `fastInsert` with the partition reference built inside its `try`: a key the
   * tree store refuses is reported as COMMUNICATION_PROBLEM, so the call never
   * throws, and it agrees with `fastInsert` wherever that one returns.
   */
  function FastInsertGuarded(st: Stores, account: Option<string>, batch: seq<StressRawData>, fault: Fault): (r: Response<()>)
    ensures r.outcome.Returned?
    ensures r.after.durable == st.durable
    ensures FastInsert(st, account, batch, fault).outcome.Returned? ==> r == FastInsert(st, account, batch, fault)
    ensures account.Some? && !ValidChildKey(LocalPart(account.value)) ==>
      r == Response(Returned(Failure(COMMUNICATION_PROBLEM)), st)
  {
    match account
    case None => Response(Returned(Failure(NOACCOUNT)), st)
    case Some(email) =>
      if !ValidChildKey(LocalPart(email)) then Response(Returned(Failure(COMMUNICATION_PROBLEM)), st)
      else FastInsert(st, account, batch, fault)
  }

  // ---------------------------------------------------------------------------
  // Whole-number readings in the tree store
  // ---------------------------------------------------------------------------

  /**
   * A sample with a whole-number reading, such as a heart rate of 70.0, is stored
   * by a successful `insertRawData`, but the tree store hands the reading back as
   * a `Long`: the `as Double` cast in `fastget` throws, and the whole read fails.
   */
  lemma WholeReadingFailsFastGet(st: Stores, email: string, batch: seq<StressRawData>, fault: Fault, i: nat)
    requires InsertRawData(st, Some(email), batch, fault).outcome == Returned(Success(()))
    requires i < |batch| && LastWithTimestamp(batch, i) && !FractionalReadings(batch[i])
    ensures !ChildrenReadable(FastPartition(InsertRawData(st, Some(email), batch, fault).after, LocalPart(email)))
  {
    WholeReadingBreaksFastRead(batch, i);
  }

  /** `(record.get(field) as Number).toDouble()`: `None` when the field is missing or not a number. */
  function CastNumber(rec: Record, field: string): Option<real> {
    if field in rec then AsNumber(rec[field]) else None
  }

  /**
   * One child of `fastget`, read through `Number` rather than `Double`: a reading
   * stored as a `Long` is accepted with its value. Wherever the reader as written
   * parses a child, this one gives the same sample.
   */
  function ReadChildNumeric(key: string, rec: Record): (r: Decoded)
    ensures r.CastFailed? <==>
      CastNumber(rec, HEART_RATE).None? || CastNumber(rec, SKIN_TEMPERATURE).None?
    ensures r.Skipped? <==> !r.CastFailed? && ToLongOrNull(key).None?
    ensures r.Parsed? ==>
      && r.sample.timestamp == ToLongOrNull(key).value
      && CastNumber(rec, HEART_RATE) == Some(r.sample.heartrateSensor)
      && CastNumber(rec, SKIN_TEMPERATURE) == Some(r.sample.skinTemperatureSensor)
    ensures ReadChild(key, rec).Parsed? ==> r == ReadChild(key, rec)
  {
    match (CastNumber(rec, HEART_RATE), CastNumber(rec, SKIN_TEMPERATURE))
    case (Some(hr), Some(st)) =>
      (match ToLongOrNull(key)
       case None => Skipped
       case Some(t) => Parsed(StressRawData(t, hr, st)))
    case _ => CastFailed
  }

  /** Read through `Number`, every written sample reads back from the tree store, whole readings included. */
  lemma ReadBackWrittenNumeric(d: StressRawData)
    ensures ReadChildNumeric(DocumentId(d), TreeRecord(Encode(d))) == Parsed(d)
  {
    ToStringRoundTrip(d.timestamp);
    var rec := TreeRecord(Encode(d));
    assert rec[HEART_RATE] == TreeNumber(DoubleValue(d.heartrateSensor));
    assert rec[SKIN_TEMPERATURE] == TreeNumber(DoubleValue(d.skinTemperatureSensor));
  }

  /**
   * With the corrected reader a freshly written fast partition reads back for
   * every batch: every child reads as a sample of the batch, and every sample
   * that is last with its timestamp reads back as itself.
   */
  lemma NumericMirrorReadsBack(batch: seq<StressRawData>)
    ensures var part := TreePartition(Upsert(map[], batch));
      && (forall key :: key in part ==>
            ReadChildNumeric(key, part[key]).Parsed? && ReadChildNumeric(key, part[key]).sample in batch)
      && (forall i :: 0 <= i < |batch| && LastWithTimestamp(batch, i) ==>
            DocumentId(batch[i]) in part
            && ReadChildNumeric(DocumentId(batch[i]), part[DocumentId(batch[i])]) == Parsed(batch[i]))
  {
    var written := Upsert(map[], batch);
    var part := TreePartition(written);
    UpsertKeys(map[], batch);
    forall key | key in part
      ensures ReadChildNumeric(key, part[key]).Parsed? && ReadChildNumeric(key, part[key]).sample in batch
    {
      UpsertFromBatch(map[], batch, key);
      var d :| d in batch && DocumentId(d) == key && written[key] == Encode(d);
      ReadBackWrittenNumeric(d);
    }
    forall i | 0 <= i < |batch| && LastWithTimestamp(batch, i)
      ensures DocumentId(batch[i]) in part
        && ReadChildNumeric(DocumentId(batch[i]), part[DocumentId(batch[i])]) == Parsed(batch[i])
    {
      UpsertLastWins(map[], batch, i);
      ReadBackWrittenNumeric(batch[i]);
    }
  }
}
